=== FILE: README.md ===
# HorizontalListView: windowing and recycling engine

A Dafny model of the layout engine inside `HorizontalListView`, an Android
widget that shows an adapter's items in one horizontally scrolling row and
attaches only the views that cover the viewport. The model covers these parts:

- **The recycle pool.** It holds one FIFO queue of detached views per view type. It models
  `initializeRemovedViewCache`, `recycleView`, `getRecycledView` and
  `isItemViewTypeValid`, in `recycle_pool.dfy`.
- **The layout window.** A single immutable `LayoutState` record holds
  `currentX`, `nextX`, `displayOffset`, `leftIndex`, `rightIndex`, `maxX`, the
  attached children and the pool (`window.dfy`).
- **One layout pass**, written as pure steps over that record:
  - `removeNonVisibleChildren` evicts children to the left and then to the right (`evict.dfy`);
  - `fillList` fills to the right and then to the left (`fill.dfy`);
  - `positionChildren` lays the children out (`position.dfy`);
  - `onLayout` runs the data-changed reset, the fling sample, the two clamps,
    the pass order `dx = currentX - nextX`, the commit `currentX = nextX` and the
    end-of-fling handling (`layout.dfy`).
- **The recycling round trip.** A view that eviction hands to the pool is the
  one the next fill offers to `getView` for an item of the same type, when
  that type's queue was empty. The queues are FIFO, so a view recycled behind
  others waits its turn (`recycling.dfy`).
- **The scroll-state notifier.** `setCurrentScrollState` notifies the
  listener before it commits the new state (`scroll_notifier.dfy`).

The sources of the model's inputs:
- A child is a view id plus its measured width. It also carries the frame
  (`left`, `top`, `right`) that positioning gives it. A newly attached child
  has a zero frame until it is positioned.
- The adapter is a set of pure parameters: `count`, `viewTypeCount`,
  `viewType(i)`, `width(i)`, and `getView(i, recycled)`.
- The viewport is its width and its left and top padding.
- A running fling is an input to each pass. It gives the offset the fling
  produced, if any, and whether the fling is finished.

The main members model the code **as written**. That includes three defects:
- `removeNonVisibleChildren` dereferences a missing child. The model returns an
  explicit `Crash` result for this.
- `fillListRight` never seeds `leftIndex`.
- `positionChildren` lays the children out from the offset as it was before
  `dx` was added.

Each defect has a corrected counterpart with its intended property proved:
`RemoveNonVisibleChildrenGuarded`, `FillListSeeded` and
`PositionChildrenFixed`. `LayoutWindowFixed` and `OnLayoutFixed` assemble them
into a pass. See "Findings".

`mMaxX` is only ever `Integer.MAX_VALUE` in this file, so `maxX` is state that
no step tightens. `mDataChanged` is never set to true in this file, so it is a
flag on the widget that the caller may set.

The source paths below are relative to the repository root.

## Model

| member | source | states |
|---|---|---|
| Window.InitView | library/src/main/java/com/sonaive/library/HorizontalListView.java:123-131 | `initView` puts the window at its initial state: both positions and the offset at 0, both indices at -1, `maxX` unbounded; the children and the cache are untouched |
| Layout.NewWidget | library/src/main/java/com/sonaive/library/HorizontalListView.java:95-106 | the widget as constructed has no adapter, no child and an empty cache; both indices are -1, `currentX`, `nextX` and `displayOffset` are 0 and `maxX` is unbounded; the state is IDLE, with no listener and no pending data change |
| RecyclePool.InitializeRemovedViewCache | library/src/main/java/com/sonaive/library/HorizontalListView.java:161-167 | the cache holds exactly `max(0, viewTypeCount)` queues, every one empty, and no view is pooled, whatever the cache held before |
| RecyclePool.RecycleView | library/src/main/java/com/sonaive/library/HorizontalListView.java:374-383 | when the item's type is below the number of queues, the view joins the back of that type's queue and the pooled views grow by exactly that view; every other queue is unchanged; an out-of-range type leaves the pool unchanged |
| RecyclePool.GetRecycledView | library/src/main/java/com/sonaive/library/HorizontalListView.java:385-396 | no view and an unchanged pool when the type has no queue or its queue is empty; otherwise the head of the queue is returned and removed; other queues are unchanged; the pooled views plus the returned one are the views pooled before |
| RecyclePool.ValidTypesArePooled | library/src/main/java/com/sonaive/library/HorizontalListView.java:374-396 | `isItemViewTypeValid` holds of an item's type exactly when recycling a view for that item adds it to the pool; only an item of a valid type can be handed a view, and one always is right after a view was recycled for it |
| RecyclePool.RecycleThenGet | library/src/main/java/com/sonaive/library/HorizontalListView.java:374-392 | a view recycled into an empty queue is the one handed out next for any item of the same type, and the pool returns to what it was |
| RecyclePool.RecycleQueuesBehind | library/src/main/java/com/sonaive/library/HorizontalListView.java:374-392 | recycling into a non-empty queue does not jump the line: the old head is handed out next |
| RecyclePool.FifoOrder | library/src/main/java/com/sonaive/library/HorizontalListView.java:374-392 | views recycled one after another into an empty queue are handed out again in the order they were recycled |
| ScrollNotifier.SetCurrentScrollState | library/src/main/java/com/sonaive/library/HorizontalListView.java:473-478 | the listener is called, once, exactly when the new state differs from the current one and a listener is set; the call carries the new state while the old one is still current; the new state is always committed |
| ScrollNotifier.SetListener | library/src/main/java/com/sonaive/library/HorizontalListView.java:465-467 | registering or clearing the listener does not change the current scroll state |
| ScrollNotifier.SetTwiceNotifiesOnce | library/src/main/java/com/sonaive/library/HorizontalListView.java:473-478 | setting the same state twice in a row notifies at most once, and the second set never notifies |
| ScrollNotifier.SetEach | library/src/main/java/com/sonaive/library/HorizontalListView.java:473-478 | after a run of sets the current state is the last one set, and the listener registration is untouched |
| ScrollNotifier.NotificationsChain | library/src/main/java/com/sonaive/library/HorizontalListView.java:473-478 | with a listener, the calls over any run of sets form a chain of real changes from the state before the run to the state after it, each starting where the previous one ended; without a listener there are none |
| Layout.SetScrollListener | library/src/main/java/com/sonaive/library/HorizontalListView.java:465-467 | registering or clearing the listener leaves the scroll state and the window as they were |
| Layout.Reset | library/src/main/java/com/sonaive/library/HorizontalListView.java:170-174 | `reset` detaches every child, puts both indices at -1, both positions and the offset at 0 and `maxX` back to unbounded, keeps the adapter and cache, and makes the state IDLE with at most one listener call, made exactly when the state was not IDLE and a listener is set, seeing the old state |
| Layout.SetAdapter | library/src/main/java/com/sonaive/library/HorizontalListView.java:143-174 | a non-null adapter is installed with a fresh cache of `viewTypeCount` empty queues, a null one keeps the old adapter and cache; either way every child is detached, both indices are back at -1, both positions and the offset at 0, `maxX` unbounded, the state is IDLE, and the listener hears of that change only if the state was not IDLE already |
| Layout.ResetForDataChange | library/src/main/java/com/sonaive/library/HorizontalListView.java:199-205 | the data-changed branch detaches every child, puts both indices at -1 and the offset at 0, makes the position last drawn the next one to draw, leaves `maxX` unbounded and the cache alone, clears the flag and leaves the state IDLE, calling the listener only if the state was not IDLE already |
| Layout.ClampNextX | library/src/main/java/com/sonaive/library/HorizontalListView.java:213-233 | the left clamp fires exactly on a negative position and the right one exactly when the position after the left clamp exceeds `maxX`; a right clamp lands on `maxX`, a left clamp with `maxX >= 0` on 0; the result is at most `maxX` and, when `maxX >= 0`, at least 0; no clamp fires exactly when the position already lies in `[0, maxX]`, and then it is unchanged |
| Layout.ClampIsIdempotent | library/src/main/java/com/sonaive/library/HorizontalListView.java:213-233 | with `maxX >= 0`, clamping an already clamped position changes nothing and fires neither clamp |
| Layout.Prepare | library/src/main/java/com/sonaive/library/HorizontalListView.java:199-233 | a clamp stops the fling exactly when the requested position (the fling's offset, else `nextX` after any reset) lies outside `[0, maxX]` |
| Layout.PrepareKeepsContiguous | library/src/main/java/com/sonaive/library/HorizontalListView.java:199-233 | the data-changed reset and the clamps before the window passes keep the window's indices spanning exactly its children |
| Layout.LayoutWindow | library/src/main/java/com/sonaive/library/HorizontalListView.java:234-241 | a pass for the shift `dx` crashes exactly when its eviction does, and one that starts with no child crashes on the missing leftmost child; a pass that completes commits `currentX = nextX` at the clamped position, leaves `maxX` alone and ends with at least one child |
| Layout.LayoutWindowPlaces | library/src/main/java/com/sonaive/library/HorizontalListView.java:235-241 | when eviction completes, so does the pass; its children are the filled ones, same views and widths in order, laid out flush from the offset before `dx` is added plus the padding; the offset then moves by `dx`; the indices and pool are the fill's |
| Layout.LayoutWindowPasses | library/src/main/java/com/sonaive/library/HorizontalListView.java:235-241 | when eviction completes, it trims the window to the slice described for `EvictionsTrim`, the fill adds views built for their items on both sides as `FillListFills` describes, and the pass lays the filled children out as `LayoutWindowPlaces` states |
| Layout.Commit | library/src/main/java/com/sonaive/library/HorizontalListView.java:235-241 | the rest of a window pass after eviction: a crash passes through unchanged and nothing else crashes; otherwise the pass commits `currentX = nextX`, keeps `maxX` and never loses a child |
| Layout.Conclude | library/src/main/java/com/sonaive/library/HorizontalListView.java:243-250 | the end of a pass keeps the committed window and the adapter, posts another pass exactly when no clamp stopped the fling and the fling is not finished, and turns a FLING state IDLE when the fling stopped |
| Layout.ConcludeNotifies | library/src/main/java/com/sonaive/library/HorizontalListView.java:243-250 | the end of a pass adds at most one listener call, FLING to IDLE, made exactly when the fling stopped while the state was FLING and a listener is set; otherwise the scroll state is untouched |
| Layout.PrepareThenConclude | library/src/main/java/com/sonaive/library/HorizontalListView.java:192-254 | any window pass that commits the clamped position ends the call as the source promises: position inside `[0, maxX]`, pinned to 0 after the left clamp and to `maxX` after the right one, the requested position otherwise; the state becomes IDLE after a data change, a clamp or a fling that finished while FLING, and is otherwise unchanged; at most one listener call (to IDLE, seeing the old state), made exactly when a listener is set and the state changed; another pass posted exactly when the fling runs on unclamped |
| Layout.OnLayout | library/src/main/java/com/sonaive/library/HorizontalListView.java:192-254 | without an adapter nothing happens; with one, the call crashes exactly when its window pass does, so a pass that starts with no child attached (every pass after a data change included) crashes; a pass that completes ends as described for `PrepareThenConclude`, leaves children attached, and leaves the window that `LayoutWindow` computes for the prepared window and its `dx = currentX - nextX` |
| Layout.LayoutWithAdapterAlwaysCrashes | library/src/main/java/com/sonaive/library/HorizontalListView.java:270-274 | as written, after any sequence of `setAdapter`, listener and layout calls from construction, a layout pass with an adapter set crashes on the missing leftmost child |
| Layout.ChildrenNeverAttached | library/src/main/java/com/sonaive/library/HorizontalListView.java:192-254 | as written, from a widget with no children no sequence of calls ever attaches one |
| Layout.LayoutWindowFixed | library/src/main/java/com/sonaive/library/HorizontalListView.java:234-241 | the corrected pass for the shift `dx` commits `currentX = nextX`, keeps `maxX`, and keeps the window's indices spanning exactly its children |
| Layout.FillAndPositionFixed | library/src/main/java/com/sonaive/library/HorizontalListView.java:236-240 | after eviction, the corrected fill and positioning keep the filled children's views and widths in order, lay them out flush from the new offset plus the padding, move the offset by `dx`, keep the fill's indices and pool, and commit `currentX = nextX` with `maxX` kept |
| Layout.LayoutWindowFixedPlaces | library/src/main/java/com/sonaive/library/HorizontalListView.java:235-241 | the corrected pass's children are the filled ones, same views and widths in order, laid out flush from the new offset plus the padding; the offset is the fill's plus `dx`; the indices and pool are the fill's |
| Layout.LayoutWindowFixedPasses | library/src/main/java/com/sonaive/library/HorizontalListView.java:235-241 | the corrected pass trims the window to the slice described for `EvictionsTrim`, adds views built for their items on both sides as `FillListSeededFills` describes, and lays the filled children out as `LayoutWindowFixedPlaces` states |
| Layout.OnLayoutFixed | library/src/main/java/com/sonaive/library/HorizontalListView.java:192-254 | the corrected `onLayout` never crashes, ends every pass (state, listener calls, position) as described for `PrepareThenConclude`, keeps the indices spanning exactly the children, and leaves the window that `LayoutWindowFixed` computes for the prepared window and its `dx = currentX - nextX` |
| Layout.FixedWindowFromEmpty | library/src/main/java/com/sonaive/library/HorizontalListView.java:332-338 | with the corrections, a pass over the empty initial window with items and a non-empty viewport attaches items 0 to `rightIndex`, with `leftIndex = 0` |
| Layout.FixedWindowFromEmptyAtPadding | library/src/main/java/com/sonaive/library/HorizontalListView.java:342-358 | with the corrections, that first pass puts the first child at the left padding |
| Layout.FirstChildAfterFill | library/src/main/java/com/sonaive/library/HorizontalListView.java:342-358 | after the corrected fill and positioning, a window with children has its first child at the fill's offset plus `dx` plus the left padding |
| Layout.FixedFirstLayoutAttaches | library/src/main/java/com/sonaive/library/HorizontalListView.java:143-155 | with the corrections, the first pass after `setAdapter`, with no fling running, attaches the items from 0, indices in step, the first child at the left padding |
| Evict.DropLeftmost | library/src/main/java/com/sonaive/library/HorizontalListView.java:278-289 | one turn of the left loop hands the leftmost child to `recycleView` under `leftIndex` |
| Evict.DropRightmost | library/src/main/java/com/sonaive/library/HorizontalListView.java:295-298 | one turn of the right loop hands the rightmost child to `recycleView` under `rightIndex` |
| Evict.EvictLeft | library/src/main/java/com/sonaive/library/HorizontalListView.java:270-290 | the left loop crashes exactly when every child would end at or left of 0 after `dx`; otherwise it drops only a prefix of children that lay fully off the left edge, the new leftmost one reaches past it, `displayOffset` grows by exactly the widths dropped and `leftIndex` by their number |
| Evict.EvictLeftGuarded | library/src/main/java/com/sonaive/library/HorizontalListView.java:270-290 | with a null check, the left loop drops a prefix of children lying fully off the left edge, with `displayOffset` and `leftIndex` moved as for `EvictLeft`, and it empties the window exactly when every child is off the left edge |
| Evict.EvictLeftCrashesWhereGuardedEmpties | library/src/main/java/com/sonaive/library/HorizontalListView.java:270-290 | the left loop as written crashes exactly where the guarded loop leaves no child, and agrees with it otherwise |
| Evict.EvictRight | library/src/main/java/com/sonaive/library/HorizontalListView.java:292-299 | the right loop crashes exactly when every child would start at or beyond the width after `dx`; otherwise it drops only a suffix of children that lay fully off the right edge, the new rightmost one starts inside, `rightIndex` drops by their number and `displayOffset` is untouched |
| Evict.EvictRightGuarded | library/src/main/java/com/sonaive/library/HorizontalListView.java:292-299 | with a null check, the right loop drops a suffix of children lying fully off the right edge, with `rightIndex` moved as for `EvictRight`, and it empties the window exactly when every child is off the right edge |
| Evict.EvictRightCrashesWhereGuardedEmpties | library/src/main/java/com/sonaive/library/HorizontalListView.java:292-299 | the right loop as written crashes exactly where the guarded loop leaves no child, and agrees with it otherwise |
| Evict.EvictionsTrim | library/src/main/java/com/sonaive/library/HorizontalListView.java:270-300 | the two loops together keep a contiguous slice of the children, in order, whose ends reach into the viewport, with the offset and both indices moved by exactly what was dropped at each end |
| Evict.RemoveNonVisibleChildren | library/src/main/java/com/sonaive/library/HorizontalListView.java:270-300 | `removeNonVisibleChildren` crashes on an empty window, crashes on the missing leftmost child exactly when every child is off the left edge, and a run that completes leaves at least one child and the scroll fields alone |
| Evict.RemoveNonVisibleChildrenTrims | library/src/main/java/com/sonaive/library/HorizontalListView.java:270-300 | a completed eviction as written trims the window to the slice described for `EvictionsTrim` |
| Evict.RemoveNonVisibleChildrenGuarded | library/src/main/java/com/sonaive/library/HorizontalListView.java:270-300 | the guarded eviction never crashes and keeps the indices spanning exactly the children |
| Evict.RemoveNonVisibleChildrenGuardedTrims | library/src/main/java/com/sonaive/library/HorizontalListView.java:270-300 | the guarded eviction trims the window to the slice described for `EvictionsTrim` |
| Evict.RemoveCrashesWhereGuardedEmpties | library/src/main/java/com/sonaive/library/HorizontalListView.java:270-300 | the eviction as written crashes exactly where the guarded one leaves no child, and gives the same window otherwise |
| Evict.GuardedEvictionOfEmpty | library/src/main/java/com/sonaive/library/HorizontalListView.java:270-300 | the guarded eviction leaves an empty window unchanged |
| Fill.AppendItem | library/src/main/java/com/sonaive/library/HorizontalListView.java:333-337 | one turn of the right loop advances `rightIndex` by one and attaches at the end the view `getView` builds for that item from the pool's offer for it, measured for that item (so it is built for that item); the pool loses exactly that offer; nothing else in the window moves |
| Fill.PrependItem | library/src/main/java/com/sonaive/library/HorizontalListView.java:323-328 | one turn of the left loop moves `leftIndex` back by one and attaches at the front the view `getView` builds for that item from the pool's offer for it; the pool loses exactly that offer; `displayOffset` drops by its width |
| Recycling.EvictedLeftReofferedRight | library/src/main/java/com/sonaive/library/HorizontalListView.java:278-289 | a child evicted through the left edge is the view offered to `getView` for the next item appended on the right when that item has the same type and the type's queue was empty, and the pool ends as it began |
| Recycling.EvictedRightReofferedLeft | library/src/main/java/com/sonaive/library/HorizontalListView.java:295-298 | a child evicted through the right edge is the view offered to `getView` for the next item prepended on the left under the same conditions, and the pool ends as it began |
| Recycling.EvictThenRefillRight | library/src/main/java/com/sonaive/library/HorizontalListView.java:332-340 | evicting the rightmost child and appending again re-attaches the same item, built from the evicted view, with the indices, the other children and the pool restored |
| Fill.FillListRight | library/src/main/java/com/sonaive/library/HorizontalListView.java:332-340 | the right fill only appends children, each a view `getView` built for its item and measured to its width, for the consecutive items after `rightIndex`, never reaching `count`; each was added while the edge plus `dx` was short of the width; it stops once the edge reaches the width or the last item is attached; `leftIndex` and `displayOffset` are untouched |
| Fill.FillListRightSeeded | library/src/main/java/com/sonaive/library/HorizontalListView.java:332-340 | the seeded right fill appends as `FillListRight` does; it keeps `leftIndex` when nothing is appended or `leftIndex` is already set, and otherwise makes the first appended item the leftmost |
| Fill.FillListLeft | library/src/main/java/com/sonaive/library/HorizontalListView.java:322-330 | the left fill only prepends children, each a view `getView` built for its item and measured to its width, for the consecutive items before `leftIndex`, never below 0; each was added while the edge plus `dx` was past 0; it stops once it is not or index 0 is reached; `displayOffset` drops by exactly the widths prepended |
| Fill.FillList | library/src/main/java/com/sonaive/library/HorizontalListView.java:302-320 | `fillList` never removes a child, never moves `leftIndex` forward and leaves the scroll fields alone |
| Fill.FillListFills | library/src/main/java/com/sonaive/library/HorizontalListView.java:302-320 | `fillList` keeps the old children unchanged in the middle, with views `getView` built for the items after `rightIndex` appended and for the items before `leftIndex` prepended, `displayOffset` lowered by exactly the width prepended, and `leftIndex` moved back by the number prepended |
| Fill.FillListSeeded | library/src/main/java/com/sonaive/library/HorizontalListView.java:302-320 | the seeded fill keeps the window's indices spanning exactly its children |
| Fill.FillListSeededFills | library/src/main/java/com/sonaive/library/HorizontalListView.java:302-320 | the seeded fill adds items on both sides just as `FillListFills` describes |
| Fill.UnseededFillLeavesLeftIndex | library/src/main/java/com/sonaive/library/HorizontalListView.java:332-338 | as written, filling the empty initial window attaches children but leaves `leftIndex` at -1, so the indices no longer span the children |
| Fill.SeededFillStartsAtZero | library/src/main/java/com/sonaive/library/HorizontalListView.java:332-338 | with the seeding, the same fill gives `leftIndex = 0` and `rightIndex = |children| - 1` |
| Position.LayOut | library/src/main/java/com/sonaive/library/HorizontalListView.java:346-357 | child `i` keeps its view and width, gets `left = start + widths of children 0..i-1`, `right = left + width`, and `top` at the padding |
| Position.LaidOutIsFlushFrom | library/src/main/java/com/sonaive/library/HorizontalListView.java:346-357 | the loop's output holds the same views with the same widths, in order, each placed where the widths before it end |
| Position.LaidOutIsFlush | library/src/main/java/com/sonaive/library/HorizontalListView.java:342-358 | laid-out children leave no gap and no overlap: each starts where the previous ends, the first at the start and the last ending one total width later |
| Position.PositionChildren | library/src/main/java/com/sonaive/library/HorizontalListView.java:342-358 | the children keep their views and are laid out flush from the old `displayOffset` plus padding; afterwards `displayOffset` is the old one plus `dx`; indices and pool are untouched |
| Position.PositionLagsByDx | library/src/main/java/com/sonaive/library/HorizontalListView.java:344-349 | as written, the first child starts `dx` short of the new `displayOffset` plus padding, so any non-zero `dx` puts it where the offset does not say |
| Position.PositionChildrenFixed | library/src/main/java/com/sonaive/library/HorizontalListView.java:342-358 | the corrected positioning lays the children out flush from the new `displayOffset` plus padding |
| Position.FixedFirstChildAtOffset | library/src/main/java/com/sonaive/library/HorizontalListView.java:342-358 | with the correction, the first child starts at the old offset plus `dx` plus the padding |

## Left out

- Android view plumbing is abstracted away: `addViewInLayout`, `removeViewInLayout`, `removeAllViewsInLayout`, `child.layout`, and measuring through `measureChild`/`getLayoutParams`/`onMeasure`. The children are a sequence, and each measured width is an adapter-supplied natural number. A child's measured height and its `bottom` edge are not modelled.
- `getView` and view reuse: the adapter's `getView` is an opaque pure function of the index and the recycled view it is offered. This is a model assumption: the model gives a newly attached child a zero frame, whereas a recycled Android view keeps its old frame until it is laid out again. The difference shows where the left fill reads `getLeftmostChild().getLeft()` (lines 315-316) on a child that the right fill has just attached to an empty window: the model reads 0 there.
- Fling physics (`Scroller`, `computeScrollOffset`, `getCurrX`, `forceFinished`) uses floating point. It is replaced by a per-pass input: an optional offset and a "finished" flag. A clamp counts as a forced finish.
- Edge glow (`EdgeEffectCompat`, `determineFlingAbsorbVelocity`) is cosmetic floating-point work.
- Frame scheduling: `ViewCompat.postOnAnimation` with `mDelayedLayout` at the end of `onLayout` is the `reschedule` flag of a pass. The `requestLayout` that `reset` makes (line 173) is left out: `SetAdapter` does not return a request for a pass, and a caller runs `OnLayout` when it chooses.
- Gestures and the touch listener (`bindGestureDetector`, `GestureListener`) are input handling with no effect on the engine.
- The SDK-version shims `HoneyCombPlus` and `IceCreamSandwichPlus` are platform plumbing.
- The data-set observer calls in `setAdapter` (lines 146 and 151, each with a null observer) are left out. What the adapter does with them is not part of this model. `getCount()` (line 333) is declared in Android's `AdapterView`, which is not part of this model, so the adapter's `count` is a parameter.
- `setSelection` and `getAdapter` are trivial accessors with no effect on layout. The constructor's attribute handling is also left out; `NewWidget` is the state after construction.
- `mDataChanged` is never set to true in this file. The model keeps it as a flag on the widget, and the data-changed branch of `onLayout` is modelled for a caller that sets it.
- `mMaxX` is never tightened in this file. No step of the model narrows `maxX`.
- Java `int` overflow is not modelled: the arithmetic is unbounded, so offsets, edges and positions never wrap.
- Negative view types (`IGNORE_ITEM_VIEW_TYPE`) are excluded: `viewType` returns a natural number. `isItemViewTypeValid` checks only the upper bound, so `mRemovedViewsCache.get` (an `ArrayList`, line 46; the queues in it are `LinkedList`s) would throw on a negative type at lines 381 and 389; that path is not modelled.
- Evict.RemoveNonVisibleChildren: conservation of views across the whole eviction is not stated. Each step states which view goes into or comes out of the pool: `DropLeftmost`, `DropRightmost`, `AppendItem` and `PrependItem` through `RecycleView` and `GetRecycledView`. The whole eviction and fill contracts state only that the pool keeps its number of queues.
- `onLayout` first calls `super.onLayout(changed, l, t, r, b)` (line 193), which is Android's `AbsListView.onLayout` (the class extends `AbsListView`, line 25). `AbsListView` is not part of this model; the call is taken to leave the window, the pool and the scroll state alone.
- Layout.OnLayout: a crashing pass returns only the fault. The listener calls the source has already made by then are dropped: IDLE from the data-changed `initView` (lines 201 and 130) and from the clamps (lines 222 and 232). `Layout.Prepare` computes exactly those calls, in its `notified` field.
- Layout.LayoutWindow: the function's own contract does not state the children, indices, offset or pool after a pass. `Layout.LayoutWindowPasses` and `Layout.LayoutWindowPlaces` state them, to keep each proof cheap to verify.
- Layout.LayoutWindowFixed: likewise, `Layout.LayoutWindowFixedPasses` and `Layout.LayoutWindowFixedPlaces` state the children, indices, offset and pool after a corrected pass.

## Findings

| source | as written | input that shows it | evidently intended | confidence | as-written member | corrected member |
|---|---|---|---|---|---|---|
| library/src/main/java/com/sonaive/library/HorizontalListView.java:270-274 | `removeNonVisibleChildren` reads `getLeftmostChild().getRight()` with no null check. Every pass runs it before `fillList`. | Any `onLayout` with an adapter set and no child attached, such as the first pass after `setAdapter` (`reset` detaches every child). So no sequence of calls ever attaches a child. | Skip eviction on an empty window, or stop when none is left, so that `fillList` can populate it. | high; not executed | Layout.LayoutWithAdapterAlwaysCrashes | Layout.FixedFirstLayoutAttaches |
| library/src/main/java/com/sonaive/library/HorizontalListView.java:332-338 | `fillListRight` advances `mRightViewAdapterIndex` but never moves `mLeftViewAdapterIndex` up from the -1 that `initView` sets. | An empty window with both indices at -1, `count > 0`, and `dx` below the width: `fillList` attaches children but `leftIndex` stays -1. As written every pass on an empty window crashes before `fillList`, so this shows only once the null-check defect is fixed. | The first item appended to an empty window is also the leftmost, so `leftIndex` becomes its index. | medium; not executed | Fill.UnseededFillLeavesLeftIndex | Fill.SeededFillStartsAtZero |
| library/src/main/java/com/sonaive/library/HorizontalListView.java:344-349 | `positionChildren` captures `leftOffset` from `mDisplayOffset` before adding `dx`, then lays the children out from the captured value. | Any pass with at least one child and `dx != 0`. As written no pass ever completes with a child attached (`Layout.ChildrenNeverAttached`), so this shows only once the null-check defect is fixed: the first child's left edge is `displayOffset - dx + paddingLeft`, not `displayOffset + paddingLeft`. | Add `dx` to `mDisplayOffset` first and lay the children out from the updated offset, so the pass draws the new scroll position. | medium; not executed | Position.PositionLagsByDx | Position.PositionChildrenFixed |

=== FILE: evict.dfy ===
/**
  `removeNonVisibleChildren`: children that the coming scroll by `dx` would
  carry fully past the left edge, then past the right edge, are detached
  and recycled.
*/
module Evict {
  import opened Outcomes
  import opened Views
  import opened RecyclePool
  import opened Window

  /**
    `r` is `s` with the first `k` children evicted through the left edge,
    where `k` is how many `r` has fewer: each of them lay fully left of the
    edge, their widths moved into `displayOffset`, `leftIndex` advanced once
    per child, and the pool kept its number of queues.
  */
  ghost predicate EvictedLeft(s: LayoutState, r: LayoutState, dx: int)
  {
    var k := |s.children| - |r.children|;
    && 0 <= k
    && r.children == s.children[k..]
    && (forall i :: 0 <= i < k ==> s.children[i].right + dx <= 0)
    && (0 < |r.children| ==> r.children[0].right + dx > 0)
    && r.displayOffset == s.displayOffset + SumWidths(s.children[..k])
    && r.leftIndex == s.leftIndex + k
    && r.rightIndex == s.rightIndex
    && KeepsScroll(s, r)
    && |r.pool| == |s.pool|
  }

  /**
    `r` is `s` with its last children evicted through the right edge: each
    of them started at or beyond the viewport width, `rightIndex` went back
    once per child, and nothing but the pool changed besides.
  */
  ghost predicate EvictedRight(s: LayoutState, r: LayoutState, dx: int, viewWidth: int)
  {
    var m := |r.children|;
    && m <= |s.children|
    && r.children == s.children[..m]
    && (forall i :: m <= i < |s.children| ==> s.children[i].left + dx >= viewWidth)
    && (0 < m ==> r.children[m - 1].left + dx < viewWidth)
    && r.rightIndex == s.rightIndex - (|s.children| - m)
    && r.leftIndex == s.leftIndex
    && r.displayOffset == s.displayOffset
    && KeepsScroll(s, r)
    && |r.pool| == |s.pool|
  }

  /** One turn of the left loop: the leftmost child is recycled under `leftIndex` and detached. */
  function DropLeftmost(s: LayoutState, a: Adapter): (r: LayoutState)
    requires |s.children| > 0
    ensures r.pool == RecycleView(s.pool, a, s.leftIndex, s.children[0].id)
    ensures |r.pool| == |s.pool|
  {
    s.(displayOffset := s.displayOffset + s.children[0].width,
       pool := RecycleView(s.pool, a, s.leftIndex, s.children[0].id),
       leftIndex := s.leftIndex + 1,
       children := s.children[1..])
  }

  /** One turn of the right loop: the rightmost child is recycled under `rightIndex` and detached. */
  function DropRightmost(s: LayoutState, a: Adapter): (r: LayoutState)
    requires |s.children| > 0
    ensures r.pool == RecycleView(s.pool, a, s.rightIndex, s.children[|s.children| - 1].id)
    ensures |r.pool| == |s.pool|
  {
    s.(pool := RecycleView(s.pool, a, s.rightIndex, s.children[|s.children| - 1].id),
       rightIndex := s.rightIndex - 1,
       children := s.children[..|s.children| - 1])
  }

  /** Past an evicted leftmost child, "every child is off the left edge" is unchanged. */
  lemma LeftStep(s: LayoutState, a: Adapter, dx: int)
    requires |s.children| > 0 && s.children[0].right + dx <= 0
    ensures (forall i :: 0 <= i < |s.children| ==> s.children[i].right + dx <= 0) <==>
            (forall i :: 0 <= i < |DropLeftmost(s, a).children| ==> DropLeftmost(s, a).children[i].right + dx <= 0)
  {
    var s1 := DropLeftmost(s, a);
    assert forall i :: 1 <= i < |s.children| ==> s1.children[i - 1] == s.children[i];
  }

  /** Evicting the leftmost child and then some more is an eviction from the left. */
  lemma EvictedLeftStep(s: LayoutState, a: Adapter, dx: int, r: LayoutState)
    requires |s.children| > 0 && s.children[0].right + dx <= 0
    requires EvictedLeft(DropLeftmost(s, a), r, dx)
    ensures EvictedLeft(s, r, dx)
  {
    var s1 := DropLeftmost(s, a);
    var k := |s.children| - |r.children|;
    HeadPrefix(s.children, k);
    assert forall i :: 1 <= i < |s.children| ==> s1.children[i - 1] == s.children[i];
  }

  /** Past an evicted rightmost child, "every child is off the right edge" is unchanged. */
  lemma RightStep(s: LayoutState, a: Adapter, dx: int, viewWidth: int)
    requires |s.children| > 0 && s.children[|s.children| - 1].left + dx >= viewWidth
    ensures (forall i :: 0 <= i < |s.children| ==> s.children[i].left + dx >= viewWidth) <==>
            (forall i :: 0 <= i < |DropRightmost(s, a).children| ==> DropRightmost(s, a).children[i].left + dx >= viewWidth)
  {
    var s1 := DropRightmost(s, a);
    assert forall i :: 0 <= i < |s1.children| ==> s1.children[i] == s.children[i];
  }

  /** Evicting the rightmost child and then some more is an eviction from the right. */
  lemma EvictedRightStep(s: LayoutState, a: Adapter, dx: int, viewWidth: int, r: LayoutState)
    requires |s.children| > 0 && s.children[|s.children| - 1].left + dx >= viewWidth
    requires EvictedRight(DropRightmost(s, a), r, dx, viewWidth)
    ensures EvictedRight(s, r, dx, viewWidth)
  {
    var s1 := DropRightmost(s, a);
    var m, n := |r.children|, |s.children|;
    assert s.children[..n - 1][..m] == s.children[..m];
    assert r.children == s.children[..m];
    assert forall i :: m <= i < n - 1 ==> s.children[i] == s1.children[i];
    assert forall i :: m <= i < n ==> s.children[i].left + dx >= viewWidth;
  }

  /**
    The left loop as written: it reads the leftmost child without a null
    check, so it crashes when there is no child to begin with or when it has
    evicted every child.
  */
  function EvictLeft(s: LayoutState, a: Adapter, dx: int): (r: Result<LayoutState>)
    ensures r.Crash? <==> forall i :: 0 <= i < |s.children| ==> s.children[i].right + dx <= 0
    ensures r.Crash? ==> r.fault == NullLeftmostChild
    ensures r.Ok? ==> EvictedLeft(s, r.value, dx) && |r.value.children| > 0
    decreases |s.children|
  {
    if |s.children| == 0 then Crash(NullLeftmostChild)
    else if s.children[0].right + dx <= 0 then
      var r := EvictLeft(DropLeftmost(s, a), a, dx);
      LeftStep(s, a, dx);
      if r.Ok? then EvictedLeftStep(s, a, dx, r.value); r else r
    else
      Ok(s)
  }

  /** The left loop with the null check it lacks: it stops when no child is left. */
  function EvictLeftGuarded(s: LayoutState, a: Adapter, dx: int): (r: LayoutState)
    ensures EvictedLeft(s, r, dx)
    ensures |r.children| == 0 <==> forall i :: 0 <= i < |s.children| ==> s.children[i].right + dx <= 0
    decreases |s.children|
  {
    if |s.children| == 0 then s
    else if s.children[0].right + dx <= 0 then
      var r := EvictLeftGuarded(DropLeftmost(s, a), a, dx);
      LeftStep(s, a, dx);
      EvictedLeftStep(s, a, dx, r);
      r
    else
      s
  }

  /**
    The right loop as written: it reads the rightmost child without a null
    check, so it crashes when there is no child to begin with or when it has
    evicted every child.
  */
  function EvictRight(s: LayoutState, a: Adapter, dx: int, viewWidth: int): (r: Result<LayoutState>)
    ensures r.Crash? <==> forall i :: 0 <= i < |s.children| ==> s.children[i].left + dx >= viewWidth
    ensures r.Crash? ==> r.fault == NullRightmostChild
    ensures r.Ok? ==> EvictedRight(s, r.value, dx, viewWidth) && |r.value.children| > 0
    decreases |s.children|
  {
    if |s.children| == 0 then Crash(NullRightmostChild)
    else if s.children[|s.children| - 1].left + dx >= viewWidth then
      var r := EvictRight(DropRightmost(s, a), a, dx, viewWidth);
      RightStep(s, a, dx, viewWidth);
      if r.Ok? then EvictedRightStep(s, a, dx, viewWidth, r.value); r else r
    else
      Ok(s)
  }

  /** The right loop with the null check it lacks: it stops when no child is left. */
  function EvictRightGuarded(s: LayoutState, a: Adapter, dx: int, viewWidth: int): (r: LayoutState)
    ensures EvictedRight(s, r, dx, viewWidth)
    ensures |r.children| == 0 <==> forall i :: 0 <= i < |s.children| ==> s.children[i].left + dx >= viewWidth
    decreases |s.children|
  {
    if |s.children| == 0 then s
    else if s.children[|s.children| - 1].left + dx >= viewWidth then
      var r := EvictRightGuarded(DropRightmost(s, a), a, dx, viewWidth);
      RightStep(s, a, dx, viewWidth);
      EvictedRightStep(s, a, dx, viewWidth, r);
      r
    else
      s
  }

  /** The left loop as written crashes exactly where the guarded one empties the list, and agrees with it otherwise. */
  lemma {:induction false} EvictLeftCrashesWhereGuardedEmpties(s: LayoutState, a: Adapter, dx: int)
    ensures EvictLeft(s, a, dx) ==
      if |EvictLeftGuarded(s, a, dx).children| == 0 then Crash(NullLeftmostChild) else Ok(EvictLeftGuarded(s, a, dx))
    decreases |s.children|
  {
    if |s.children| > 0 && s.children[0].right + dx <= 0 {
      EvictLeftCrashesWhereGuardedEmpties(DropLeftmost(s, a), a, dx);
    }
  }

  /** The right loop as written crashes exactly where the guarded one empties the list, and agrees with it otherwise. */
  lemma {:induction false} EvictRightCrashesWhereGuardedEmpties(s: LayoutState, a: Adapter, dx: int, viewWidth: int)
    ensures EvictRight(s, a, dx, viewWidth) ==
      if |EvictRightGuarded(s, a, dx, viewWidth).children| == 0 then Crash(NullRightmostChild)
      else Ok(EvictRightGuarded(s, a, dx, viewWidth))
    decreases |s.children|
  {
    if |s.children| > 0 && s.children[|s.children| - 1].left + dx >= viewWidth {
      EvictRightCrashesWhereGuardedEmpties(DropRightmost(s, a), a, dx, viewWidth);
    }
  }

  /**
    `r` is `s` cut down to a middle run `s.children[k..k + |r.children|]`,
    where `k` is how far `leftIndex` moved: the children cut from the front
    lay fully left of the viewport, those cut from the back fully right of
    it, and the ends of what is kept reach into it.
  */
  ghost predicate Trimmed(s: LayoutState, r: LayoutState, dx: int, viewWidth: int)
  {
    var k := r.leftIndex - s.leftIndex;
    var m := |r.children|;
    && 0 <= k && k + m <= |s.children|
    && r.children == s.children[k..k + m]
    && (forall i :: 0 <= i < k ==> s.children[i].right + dx <= 0)
    && (forall i :: k + m <= i < |s.children| ==> s.children[i].left + dx >= viewWidth)
    && (0 < m ==> r.children[0].right + dx > 0 && r.children[m - 1].left + dx < viewWidth)
    && r.displayOffset == s.displayOffset + SumWidths(s.children[..k])
    && r.rightIndex == s.rightIndex - (|s.children| - k - m)
    && KeepsScroll(s, r)
    && |r.pool| == |s.pool|
  }

  /** Evicting from the left and then from the right trims the children to a middle run. */
  lemma EvictionsTrim(s: LayoutState, l: LayoutState, r: LayoutState, dx: int, viewWidth: int)
    requires EvictedLeft(s, l, dx)
    requires EvictedRight(l, r, dx, viewWidth)
    requires |l.children| > 0 ==> l.children[0].right + dx > 0
    ensures Trimmed(s, r, dx, viewWidth)
  {
    var k := |s.children| - |l.children|;
    var m := |r.children|;
    assert r.children == s.children[k..k + m];
    forall i | k + m <= i < |s.children|
      ensures s.children[i].left + dx >= viewWidth
    {
      assert s.children[i] == l.children[i - k];
    }
    assert l.children[m..] == s.children[k + m..];
  }

  /**
    `removeNonVisibleChildren(dx)` as written: the left loop, then the right
    loop, crashing when either reads a child that is not there.
  */
  function RemoveNonVisibleChildren(s: LayoutState, a: Adapter, dx: int, viewWidth: int): (r: Result<LayoutState>)
    ensures |s.children| == 0 ==> r == Crash(NullLeftmostChild)
    ensures r.Crash? && r.fault == NullLeftmostChild <==> forall i :: 0 <= i < |s.children| ==> s.children[i].right + dx <= 0
    ensures r.Ok? ==> |r.value.children| > 0 && KeepsScroll(s, r.value)
  {
    match EvictLeft(s, a, dx)
    case Crash(f) => Crash(f)
    case Ok(l) => EvictRight(l, a, dx, viewWidth)
  }

  /** A successful eviction as written trims the window to the children that reach into the viewport. */
  lemma RemoveNonVisibleChildrenTrims(s: LayoutState, a: Adapter, dx: int, viewWidth: int)
    ensures RemoveNonVisibleChildren(s, a, dx, viewWidth).Ok? ==>
            Trimmed(s, RemoveNonVisibleChildren(s, a, dx, viewWidth).value, dx, viewWidth)
  {
    match EvictLeft(s, a, dx)
    case Crash(_) =>
    case Ok(l) =>
      var r := EvictRight(l, a, dx, viewWidth);
      if r.Ok? {
        EvictionsTrim(s, l, r.value, dx, viewWidth);
      }
  }

  /** `removeNonVisibleChildren(dx)` with both null checks in place: it never crashes, and keeps the indices in step with the children. */
  function RemoveNonVisibleChildrenGuarded(s: LayoutState, a: Adapter, dx: int, viewWidth: int): (r: LayoutState)
    ensures KeepsScroll(s, r)
    ensures Contiguous(s) ==> Contiguous(r)
  {
    var l := EvictLeftGuarded(s, a, dx);
    var r := EvictRightGuarded(l, a, dx, viewWidth);
    EvictionsTrim(s, l, r, dx, viewWidth);
    r
  }

  /** The guarded eviction trims the window to the children that reach into the viewport. */
  lemma RemoveNonVisibleChildrenGuardedTrims(s: LayoutState, a: Adapter, dx: int, viewWidth: int)
    ensures Trimmed(s, RemoveNonVisibleChildrenGuarded(s, a, dx, viewWidth), dx, viewWidth)
  {
    var l := EvictLeftGuarded(s, a, dx);
    EvictionsTrim(s, l, EvictRightGuarded(l, a, dx, viewWidth), dx, viewWidth);
  }

  /** The eviction as written crashes exactly when the guarded one leaves no child, and agrees with it otherwise. */
  lemma RemoveCrashesWhereGuardedEmpties(s: LayoutState, a: Adapter, dx: int, viewWidth: int)
    ensures RemoveNonVisibleChildren(s, a, dx, viewWidth).Crash? <==>
            |RemoveNonVisibleChildrenGuarded(s, a, dx, viewWidth).children| == 0
    ensures RemoveNonVisibleChildren(s, a, dx, viewWidth).Ok? ==>
            RemoveNonVisibleChildren(s, a, dx, viewWidth).value == RemoveNonVisibleChildrenGuarded(s, a, dx, viewWidth)
  {
    EvictLeftCrashesWhereGuardedEmpties(s, a, dx);
    var l := EvictLeftGuarded(s, a, dx);
    EvictRightCrashesWhereGuardedEmpties(l, a, dx, viewWidth);
    if |l.children| == 0 {
      assert EvictRightGuarded(l, a, dx, viewWidth).children == [];
    }
  }

  /** The guarded eviction has nothing to do on an empty window. */
  lemma GuardedEvictionOfEmpty(s: LayoutState, a: Adapter, dx: int, viewWidth: int)
    requires s.children == []
    ensures RemoveNonVisibleChildrenGuarded(s, a, dx, viewWidth) == s
  {
    assert EvictLeftGuarded(s, a, dx) == s;
    assert EvictRightGuarded(s, a, dx, viewWidth) == s;
  }
}

=== FILE: fill.dfy ===
/**
  `fillList`: new children are pulled from the adapter, through the recycle
  pool, to cover the viewport, first to the right of the attached children
  and then to their left.
*/
module Fill {
  import opened Outcomes
  import opened Views
  import opened RecyclePool
  import opened Window

  /** One turn of `fillListRight`'s loop: the next item is obtained, measured and attached at the end. */
  function AppendItem(s: LayoutState, a: Adapter): (r: LayoutState)
    ensures r.rightIndex == s.rightIndex + 1
    ensures |r.children| == |s.children| + 1 && r.children[..|s.children|] == s.children
    ensures r.children[|s.children|].width == a.width(s.rightIndex + 1)
    ensures BuiltFor(a, s.rightIndex + 1, r.children[|s.children|])
    ensures r.children[|s.children|].id == a.getView(s.rightIndex + 1, GetRecycledView(s.pool, a, s.rightIndex + 1).view)
    ensures r.pool == GetRecycledView(s.pool, a, s.rightIndex + 1).pool
    ensures r.leftIndex == s.leftIndex && r.displayOffset == s.displayOffset
    ensures KeepsScroll(s, r) && |r.pool| == |s.pool|
  {
    var i := s.rightIndex + 1;
    var got := GetRecycledView(s.pool, a, i);
    var child := Unlaid(a.getView(i, got.view), a.width(i));
    s.(rightIndex := i, pool := got.pool, children := s.children + [child])
  }

  /** One turn of `fillListLeft`'s loop: the previous item is obtained, measured and attached at the front. */
  function PrependItem(s: LayoutState, a: Adapter): (r: LayoutState)
    ensures r.leftIndex == s.leftIndex - 1
    ensures |r.children| == |s.children| + 1 && r.children[1..] == s.children
    ensures r.children[0].width == a.width(s.leftIndex - 1)
    ensures BuiltFor(a, s.leftIndex - 1, r.children[0])
    ensures r.children[0].id == a.getView(s.leftIndex - 1, GetRecycledView(s.pool, a, s.leftIndex - 1).view)
    ensures r.pool == GetRecycledView(s.pool, a, s.leftIndex - 1).pool
    ensures r.displayOffset == s.displayOffset - r.children[0].width
    ensures r.rightIndex == s.rightIndex
    ensures KeepsScroll(s, r) && |r.pool| == |s.pool|
  {
    var i := s.leftIndex - 1;
    var got := GetRecycledView(s.pool, a, i);
    var child := Unlaid(a.getView(i, got.view), a.width(i));
    s.(leftIndex := i, pool := got.pool, children := [child] + s.children,
       displayOffset := s.displayOffset - child.width)
  }

  /**
    `r` is `s` with children appended for the consecutive items after
    `rightIndex`, never reaching `count`, and nothing else changed but the
    pool's contents.
  */
  ghost predicate AppendedRight(s: LayoutState, r: LayoutState, a: Adapter)
  {
    var n := r.rightIndex - s.rightIndex;
    && 0 <= n
    && |r.children| == |s.children| + n
    && r.children[..|s.children|] == s.children
    && (forall j :: |s.children| <= j < |r.children| ==>
          BuiltFor(a, s.rightIndex + 1 + (j - |s.children|), r.children[j]))
    && (0 < n ==> r.rightIndex < a.count)
    && r.displayOffset == s.displayOffset
    && KeepsScroll(s, r)
    && |r.pool| == |s.pool|
  }

  /**
    From child `m` on, each child was appended while the running right edge
    (`edge`, then moved by each width appended) was short of `viewWidth`.
  */
  ghost predicate FitRight(cs: seq<Child>, m: nat, edge: int, viewWidth: int)
    requires m <= |cs|
    decreases |cs| - m
  {
    m == |cs| || (edge < viewWidth && FitRight(cs, m + 1, edge + cs[m].width, viewWidth))
  }

  /**
    Of a fill to the right from child `m` on: each child was added only while
    the edge, moved by the widths added so far and by `dx`, was short of the
    viewport width, and filling stopped once it was not or the last item was
    attached.
  */
  ghost predicate RightEdgesMet(r: LayoutState, a: Adapter, dx: int, viewWidth: int, edge: int, m: nat)
    requires m <= |r.children|
  {
    && (edge + SumWidths(r.children[m..]) + dx >= viewWidth || r.rightIndex + 1 >= a.count)
    && FitRight(r.children, m, edge + dx, viewWidth)
  }

  /** A fill to the right: the items appended, and the edge conditions they were appended under. */
  ghost predicate FilledRight(s: LayoutState, r: LayoutState, a: Adapter, dx: int, viewWidth: int, edge: int)
  {
    && AppendedRight(s, r, a)
    && RightEdgesMet(r, a, dx, viewWidth, edge, |s.children|)
  }

  lemma AppendedRightStep(s: LayoutState, s1: LayoutState, r: LayoutState, a: Adapter)
    requires s.rightIndex + 1 < a.count
    requires s1.rightIndex == s.rightIndex + 1
    requires |s1.children| == |s.children| + 1 && s1.children[..|s.children|] == s.children
    requires BuiltFor(a, s.rightIndex + 1, s1.children[|s.children|])
    requires s1.displayOffset == s.displayOffset && KeepsScroll(s, s1) && |s1.pool| == |s.pool|
    requires AppendedRight(s1, r, a)
    ensures AppendedRight(s, r, a)
    ensures r.children[|s.children|] == s1.children[|s.children|]
  {
    var m := |s.children|;
    assert r.children[..m + 1] == s1.children;
    assert r.children[..m] == r.children[..m + 1][..m];
  }

  lemma RightEdgesStep(r: LayoutState, a: Adapter, dx: int, viewWidth: int, edge: int, m: nat, w: nat)
    requires m < |r.children| && r.children[m].width == w
    requires edge + dx < viewWidth
    requires RightEdgesMet(r, a, dx, viewWidth, edge + w, m + 1)
    ensures RightEdgesMet(r, a, dx, viewWidth, edge, m)
  {
    SliceHead(r.children, m, |r.children|);
    assert r.children[m..|r.children|] == r.children[m..];
    assert r.children[m + 1..|r.children|] == r.children[m + 1..];
    assert edge + w + dx == edge + dx + r.children[m].width;
  }

  /** Appending one item and then filling further is a fill from the start. */
  lemma FilledRightStep(s: LayoutState, s1: LayoutState, r: LayoutState, a: Adapter, dx: int, viewWidth: int, edge: int)
    requires edge + dx < viewWidth && s.rightIndex + 1 < a.count
    requires s1.rightIndex == s.rightIndex + 1
    requires |s1.children| == |s.children| + 1 && s1.children[..|s.children|] == s.children
    requires BuiltFor(a, s.rightIndex + 1, s1.children[|s.children|])
    requires s1.displayOffset == s.displayOffset && KeepsScroll(s, s1) && |s1.pool| == |s.pool|
    requires FilledRight(s1, r, a, dx, viewWidth, edge + a.width(s.rightIndex + 1))
    ensures FilledRight(s, r, a, dx, viewWidth, edge)
  {
    AppendedRightStep(s, s1, r, a);
    RightEdgesStep(r, a, dx, viewWidth, edge, |s.children|, a.width(s.rightIndex + 1));
  }

  /**
    `fillListRight(rightEdge, dx)` as written: while the right edge plus
    `dx` is short of the width and items remain, the next item is appended.
    `leftIndex` is left as it was.
  */
  function FillListRight(s: LayoutState, a: Adapter, dx: int, viewWidth: int, edge: int): (r: LayoutState)
    ensures FilledRight(s, r, a, dx, viewWidth, edge)
    ensures r.leftIndex == s.leftIndex
    decreases a.count - s.rightIndex
  {
    if edge + dx < viewWidth && s.rightIndex + 1 < a.count then
      var s1 := AppendItem(s, a);
      var r := FillListRight(s1, a, dx, viewWidth, edge + a.width(s.rightIndex + 1));
      FilledRightStep(s, s1, r, a, dx, viewWidth, edge);
      r
    else
      s
  }

  /**
    `fillListRight` with the seeding it lacks: when no child was attached
    before (`leftIndex < 0`), the first appended item also becomes the
    leftmost one.
  */
  function FillListRightSeeded(s: LayoutState, a: Adapter, dx: int, viewWidth: int, edge: int): (r: LayoutState)
    ensures FilledRight(s, r, a, dx, viewWidth, edge)
    ensures r.rightIndex == s.rightIndex || 0 <= s.leftIndex ==> r.leftIndex == s.leftIndex
    ensures r.rightIndex > s.rightIndex && s.leftIndex < 0 && -1 <= s.rightIndex ==> r.leftIndex == s.rightIndex + 1
    decreases a.count - s.rightIndex
  {
    if edge + dx < viewWidth && s.rightIndex + 1 < a.count then
      var s1 := AppendItem(s, a);
      var s2 := if s1.leftIndex < 0 then s1.(leftIndex := s1.rightIndex) else s1;
      var r := FillListRightSeeded(s2, a, dx, viewWidth, edge + a.width(s.rightIndex + 1));
      FilledRightStep(s, s2, r, a, dx, viewWidth, edge);
      r
    else
      s
  }

  /**
    `r` is `s` with children prepended for the consecutive items before
    `leftIndex`, never going below index 0, and nothing else changed but
    `displayOffset` and the pool's contents.
  */
  ghost predicate PrependedLeft(s: LayoutState, r: LayoutState, a: Adapter)
  {
    var n := s.leftIndex - r.leftIndex;
    && 0 <= n
    && |r.children| == |s.children| + n
    && r.children[n..] == s.children
    && (0 < n ==> 0 <= r.leftIndex)
    && (forall j :: 0 <= j < n ==> BuiltFor(a, r.leftIndex + j, r.children[j]))
    && r.rightIndex == s.rightIndex
    && KeepsScroll(s, r)
    && |r.pool| == |s.pool|
  }

  /**
    Of the first `n` children, each was prepended (the last of them first)
    while the running left edge (`edge`, then moved back by each width
    prepended) was still right of 0.
  */
  ghost predicate FitLeft(cs: seq<Child>, n: nat, edge: int)
    requires n <= |cs|
  {
    n == 0 || (edge > 0 && FitLeft(cs, n - 1, edge - cs[n - 1].width))
  }

  /**
    Of a fill to the left, `displayOffset` went down by exactly the total
    width prepended; each child was added only while the left edge, moved by
    the widths added so far and by `dx`, was still inside the viewport, and
    filling stopped once it was not or index 0 was reached.
  */
  ghost predicate LeftEdgesMet(s: LayoutState, r: LayoutState, dx: int, edge: int, n: nat)
    requires n <= |r.children|
  {
    && r.displayOffset == s.displayOffset - SumWidths(r.children[..n])
    && (edge - SumWidths(r.children[..n]) + dx <= 0 || r.leftIndex < 1)
    && FitLeft(r.children, n, edge + dx)
  }

  /** A fill to the left: the items prepended, and the edge conditions they were prepended under. */
  ghost predicate FilledLeft(s: LayoutState, r: LayoutState, a: Adapter, dx: int, edge: int)
  {
    && PrependedLeft(s, r, a)
    && LeftEdgesMet(s, r, dx, edge, s.leftIndex - r.leftIndex)
  }

  lemma LeftEdgesStep(s: LayoutState, s1: LayoutState, r: LayoutState, dx: int, edge: int, n: nat)
    requires 0 < n <= |r.children| && 0 < |s1.children|
    requires edge + dx > 0
    requires r.children[n - 1] == s1.children[0]
    requires s1.displayOffset == s.displayOffset - s1.children[0].width
    requires LeftEdgesMet(s1, r, dx, edge - s1.children[0].width, n - 1)
    ensures LeftEdgesMet(s, r, dx, edge, n)
  {
    PrefixStep(r.children, n - 1);
    assert r.children[..n - 1 + 1] == r.children[..n];
    assert edge - s1.children[0].width + dx == edge + dx - r.children[n - 1].width;
  }

  lemma PrependedLeftStep(s: LayoutState, s1: LayoutState, r: LayoutState, a: Adapter)
    requires s.leftIndex >= 1
    requires s1.leftIndex == s.leftIndex - 1
    requires |s1.children| == |s.children| + 1 && s1.children[1..] == s.children
    requires BuiltFor(a, s.leftIndex - 1, s1.children[0])
    requires s1.rightIndex == s.rightIndex && KeepsScroll(s, s1) && |s1.pool| == |s.pool|
    requires PrependedLeft(s1, r, a)
    ensures PrependedLeft(s, r, a)
    ensures r.children[s.leftIndex - r.leftIndex - 1] == s1.children[0]
  {
    var n := s.leftIndex - r.leftIndex;
    var n1 := n - 1;
    assert r.children[n1..] == s1.children;
    assert r.children[n1] == s1.children[0];
    assert r.children[n..] == r.children[n1..][1..];
    forall j | 0 <= j < n
      ensures BuiltFor(a, r.leftIndex + j, r.children[j])
    {
      if j == n1 {
        assert r.leftIndex + j == s.leftIndex - 1;
      }
    }
  }

  /** Prepending one item and then filling further is a fill from the start. */
  lemma FilledLeftStep(s: LayoutState, s1: LayoutState, r: LayoutState, a: Adapter, dx: int, edge: int)
    requires edge + dx > 0 && s.leftIndex >= 1
    requires s1.leftIndex == s.leftIndex - 1
    requires |s1.children| == |s.children| + 1 && s1.children[1..] == s.children
    requires BuiltFor(a, s.leftIndex - 1, s1.children[0])
    requires s1.displayOffset == s.displayOffset - s1.children[0].width
    requires s1.rightIndex == s.rightIndex && KeepsScroll(s, s1) && |s1.pool| == |s.pool|
    requires FilledLeft(s1, r, a, dx, edge - a.width(s.leftIndex - 1))
    ensures FilledLeft(s, r, a, dx, edge)
  {
    PrependedLeftStep(s, s1, r, a);
    LeftEdgesStep(s, s1, r, dx, edge, s.leftIndex - r.leftIndex);
  }

  /**
    `fillListLeft(leftEdge, dx)`: while the left edge plus `dx` is inside the
    viewport and `leftIndex >= 1`, the previous item is prepended and its
    width taken off `displayOffset`.
  */
  function FillListLeft(s: LayoutState, a: Adapter, dx: int, edge: int): (r: LayoutState)
    ensures FilledLeft(s, r, a, dx, edge)
    decreases s.leftIndex
  {
    if edge + dx > 0 && s.leftIndex >= 1 then
      var s1 := PrependItem(s, a);
      var r := FillListLeft(s1, a, dx, edge - a.width(s.leftIndex - 1));
      FilledLeftStep(s, s1, r, a, dx, edge);
      r
    else
      s
  }

  /** Where `fillList` starts filling rightwards: the rightmost child's right edge, or 0 when there is none. */
  function RightEdge(cs: seq<Child>): int
  {
    if |cs| > 0 then cs[|cs| - 1].right else 0
  }

  /** Where `fillList` starts filling leftwards: the leftmost child's left edge, or 0 when there is none. */
  function LeftEdge(cs: seq<Child>): int
  {
    if |cs| > 0 then cs[0].left else 0
  }

  /**
    `r` is `s` with `nl` items prepended and `nr` appended: the old children
    sit unchanged in the middle, the new ones carry the widths of the items
    just before `leftIndex` and just after `rightIndex`, and `displayOffset`
    went down by exactly the width prepended.
  */
  ghost predicate Filled(s: LayoutState, r: LayoutState, a: Adapter)
  {
    var nr := r.rightIndex - s.rightIndex;
    var nl := |r.children| - |s.children| - nr;
    && 0 <= nl && 0 <= nr
    && r.children[nl..nl + |s.children|] == s.children
    && (forall j :: 0 <= j < nl ==> BuiltFor(a, r.leftIndex + j, r.children[j]))
    && (forall j :: nl + |s.children| <= j < |r.children| ==>
          BuiltFor(a, s.rightIndex + 1 + (j - nl - |s.children|), r.children[j]))
    && r.displayOffset == s.displayOffset - SumWidths(r.children[..nl])
    && (0 < nl ==> 0 <= r.leftIndex)
    && (0 < nr ==> r.rightIndex < a.count)
    && KeepsScroll(s, r)
    && |r.pool| == |s.pool|
  }

  /** Children prepended in front of a right fill leave the old children and the appended ones in place, shifted by `nl`. */
  lemma ShiftedByPrepend(rs: seq<Child>, s1s: seq<Child>, ss: seq<Child>, nl: nat, a: Adapter, next: int)
    requires nl <= |rs| && rs[nl..] == s1s
    requires |ss| <= |s1s| && s1s[..|ss|] == ss
    requires forall j :: |ss| <= j < |s1s| ==> BuiltFor(a, next + (j - |ss|), s1s[j])
    ensures rs[nl..nl + |ss|] == ss
    ensures forall j :: nl + |ss| <= j < |rs| ==> BuiltFor(a, next + (j - nl - |ss|), rs[j])
  {
    assert rs[nl..nl + |ss|] == s1s[..|ss|];
    forall j | nl + |ss| <= j < |rs|
      ensures BuiltFor(a, next + (j - nl - |ss|), rs[j])
    {
      assert rs[j] == s1s[j - nl];
    }
  }

  /** `Filled` from its parts, with the counts prepended and appended named. */
  lemma FilledFromParts(s: LayoutState, r: LayoutState, a: Adapter, nl: nat, nr: nat)
    requires nr == r.rightIndex - s.rightIndex && |r.children| == nl + |s.children| + nr
    requires r.children[nl..nl + |s.children|] == s.children
    requires forall j :: 0 <= j < nl ==> BuiltFor(a, r.leftIndex + j, r.children[j])
    requires forall j :: nl + |s.children| <= j < |r.children| ==>
               BuiltFor(a, s.rightIndex + 1 + (j - nl - |s.children|), r.children[j])
    requires r.displayOffset == s.displayOffset - SumWidths(r.children[..nl])
    requires 0 < nl ==> 0 <= r.leftIndex
    requires 0 < nr ==> r.rightIndex < a.count
    requires KeepsScroll(s, r) && |r.pool| == |s.pool|
    ensures Filled(s, r, a)
  {
    assert |r.children| - |s.children| - (r.rightIndex - s.rightIndex) == nl;
  }

  /** Filling right and then left is a fill on both sides. */
  lemma FilledBothSides(s: LayoutState, s1: LayoutState, r: LayoutState, a: Adapter)
    requires AppendedRight(s, s1, a)
    requires PrependedLeft(s1, r, a)
    requires r.displayOffset == s1.displayOffset - SumWidths(r.children[..s1.leftIndex - r.leftIndex])
    ensures Filled(s, r, a)
  {
    var nl := s1.leftIndex - r.leftIndex;
    ShiftedByPrepend(r.children, s1.children, s.children, nl, a, s.rightIndex + 1);
    FilledFromParts(s, r, a, nl, r.rightIndex - s.rightIndex);
  }

  /** `fillList(dx)` as written: fill to the right from the rightmost child, then to the left from the leftmost. */
  function FillList(s: LayoutState, a: Adapter, viewWidth: int, dx: int): (r: LayoutState)
    ensures |r.children| >= |s.children| && r.leftIndex <= s.leftIndex
    ensures KeepsScroll(s, r)
  {
    var s1 := FillListRight(s, a, dx, viewWidth, RightEdge(s.children));
    FillListLeft(s1, a, dx, LeftEdge(s1.children))
  }

  /** `fillList` adds items on both sides of the window; `leftIndex` moves only by the children prepended. */
  lemma FillListFills(s: LayoutState, a: Adapter, viewWidth: int, dx: int)
    ensures Filled(s, FillList(s, a, viewWidth, dx), a)
    ensures var r := FillList(s, a, viewWidth, dx);
            r.leftIndex == s.leftIndex - (|r.children| - |s.children| - (r.rightIndex - s.rightIndex))
  {
    var s1 := FillListRight(s, a, dx, viewWidth, RightEdge(s.children));
    var r := FillListLeft(s1, a, dx, LeftEdge(s1.children));
    assert AppendedRight(s, s1, a) && s1.leftIndex == s.leftIndex;
    assert PrependedLeft(s1, r, a);
    assert r.displayOffset == s1.displayOffset - SumWidths(r.children[..s1.leftIndex - r.leftIndex]);
    assert r == FillList(s, a, viewWidth, dx);
    FilledBothSides(s, s1, r, a);
  }

  /** `fillList(dx)` with the seeded right fill: it keeps the window's indices in step with its children. */
  function FillListSeeded(s: LayoutState, a: Adapter, viewWidth: int, dx: int): (r: LayoutState)
    ensures |r.children| >= |s.children|
    ensures KeepsScroll(s, r)
    ensures Contiguous(s) ==> Contiguous(r)
  {
    var s1 := FillListRightSeeded(s, a, dx, viewWidth, RightEdge(s.children));
    FillListLeft(s1, a, dx, LeftEdge(s1.children))
  }

  /** The seeded fill adds items on both sides of the window just as the unseeded one does. */
  lemma FillListSeededFills(s: LayoutState, a: Adapter, viewWidth: int, dx: int)
    ensures Filled(s, FillListSeeded(s, a, viewWidth, dx), a)
  {
    var s1 := FillListRightSeeded(s, a, dx, viewWidth, RightEdge(s.children));
    var r := FillListLeft(s1, a, dx, LeftEdge(s1.children));
    assert AppendedRight(s, s1, a);
    assert PrependedLeft(s1, r, a);
    assert r.displayOffset == s1.displayOffset - SumWidths(r.children[..s1.leftIndex - r.leftIndex]);
    assert r == FillListSeeded(s, a, viewWidth, dx);
    FilledBothSides(s, s1, r, a);
  }

  /**
    As written, filling the empty window that `initView` leaves appends items
    but keeps `leftIndex` at -1, so the indices no longer describe the children.
  */
  lemma UnseededFillLeavesLeftIndex(s: LayoutState, a: Adapter, viewWidth: int, dx: int)
    requires s.children == [] && s.leftIndex == -1 && s.rightIndex == -1
    requires 0 < a.count && dx < viewWidth
    ensures Contiguous(s)
    ensures |FillList(s, a, viewWidth, dx).children| > 0
    ensures FillList(s, a, viewWidth, dx).leftIndex == -1
    ensures !Contiguous(FillList(s, a, viewWidth, dx))
  {
    var s1 := FillListRight(s, a, dx, viewWidth, RightEdge(s.children));
    assert s.children[0..] == [];
    assert |s1.children| > 0;
    assert FillListLeft(s1, a, dx, LeftEdge(s1.children)) == s1;
  }

  /** With the seeding, the same fill starts the window at item 0. */
  lemma SeededFillStartsAtZero(s: LayoutState, a: Adapter, viewWidth: int, dx: int)
    requires s.children == [] && s.leftIndex == -1 && s.rightIndex == -1
    requires 0 < a.count && dx < viewWidth
    ensures var r := FillListSeeded(s, a, viewWidth, dx);
            && |r.children| > 0 && r.leftIndex == 0 && r.rightIndex == |r.children| - 1
            && r.displayOffset == s.displayOffset
  {
    var s1 := FillListRightSeeded(s, a, dx, viewWidth, RightEdge(s.children));
    assert s.children[0..] == [];
    assert |s1.children| > 0;
    assert FillListLeft(s1, a, dx, LeftEdge(s1.children)) == s1;
  }
}

=== FILE: layout.dfy ===
/**
  The widget: its adapter, layout state, scroll-state notifier and
  data-changed flag, with `setAdapter` and the layout pass `onLayout`.
*/
module Layout {
  import opened Outcomes
  import opened Views
  import opened RecyclePool
  import opened ScrollNotifier
  import opened Window
  import opened Evict
  import opened Fill
  import opened Position

  datatype Widget = Widget(adapter: Option<Adapter>, window: LayoutState, notifier: Notifier, dataChanged: bool)

  /**
    What the fling tracker tells one pass: the offset `computeScrollOffset`
    produced if a fling is still running, and whether the fling is finished
    after the pass (unless the pass itself stops it).
  */
  datatype FlingInput = FlingInput(offset: Option<int>, finished: bool)

  /** A widget after a call, with the listener calls that call made. */
  datatype Transition = Transition(widget: Widget, notified: seq<Notification>)

  /** The outcome of one `onLayout`: the widget, the listener calls, and whether another pass is posted for the next frame. */
  datatype Pass = Pass(widget: Widget, notified: seq<Notification>, reschedule: bool)

  /** The widget as constructed: no adapter, an empty cache, the `initView` window, idle, no listener. */
  function NewWidget(): (w: Widget)
    ensures w.adapter.None? && w.window.children == [] && w.window.pool == []
    ensures Contiguous(w.window) && w.notifier == Notifier(Idle, false) && !w.dataChanged
    ensures w.window.leftIndex == -1 && w.window.rightIndex == -1
    ensures w.window.currentX == 0 && w.window.nextX == 0 && w.window.displayOffset == 0 && w.window.maxX == IntMax
  {
    Widget(None, InitView(LayoutState(0, 0, 0, 0, 0, IntMax, [], [])), Notifier(Idle, false), false)
  }

  /** `setOnScrollStateChangedListener`. */
  function SetScrollListener(w: Widget, present: bool): (r: Widget)
    ensures r.notifier.hasListener == present && r.notifier.current == w.notifier.current
    ensures r.window == w.window && r.dataChanged == w.dataChanged
  {
    w.(notifier := SetListener(w.notifier, present))
  }

  /** `reset`: `initView` (window fields and an idle scroll state) and then every child detached, not recycled. */
  function Reset(w: Widget): (t: Transition)
    ensures t.widget.window.children == []
    ensures t.widget.window.leftIndex == -1 && t.widget.window.rightIndex == -1
    ensures t.widget.window.currentX == 0 && t.widget.window.nextX == 0 && t.widget.window.displayOffset == 0
    ensures t.widget.window.maxX == IntMax && t.widget.window.pool == w.window.pool
    ensures t.widget.adapter == w.adapter && t.widget.dataChanged == w.dataChanged
    ensures t.widget.notifier == Notifier(Idle, w.notifier.hasListener)
    ensures |t.notified| <= 1
    ensures t.notified != [] <==> w.notifier.current != Idle && w.notifier.hasListener
    ensures forall e :: e in t.notified ==> e.state == Idle && e.observed == w.notifier.current
  {
    var st := SetCurrentScrollState(w.notifier, Idle);
    Transition(w.(window := InitView(w.window).(children := []), notifier := st.notifier), st.notified)
  }

  /**
    `setAdapter`: a non-null adapter replaces the old one and gets a fresh
    cache with one empty queue per view type; null keeps the old adapter
    and cache. Either way the widget is reset.
  */
  function SetAdapter(w: Widget, adapter: Option<Adapter>): (t: Transition)
    ensures adapter.Some? ==>
      && t.widget.adapter == adapter
      && |t.widget.window.pool| == (if adapter.value.viewTypeCount < 0 then 0 else adapter.value.viewTypeCount)
      && Pooled(t.widget.window.pool) == multiset{}
    ensures adapter.None? ==> t.widget.adapter == w.adapter && t.widget.window.pool == w.window.pool
    ensures t.widget.window.children == [] && Contiguous(t.widget.window)
    ensures t.widget.window.leftIndex == -1 && t.widget.window.rightIndex == -1
    ensures t.widget.window.currentX == 0 && t.widget.window.nextX == 0 && t.widget.window.displayOffset == 0
    ensures t.widget.window.maxX == IntMax
    ensures t.widget.notifier == Notifier(Idle, w.notifier.hasListener)
    ensures t.notified == if w.notifier.current != Idle && w.notifier.hasListener then [Notification(Idle, w.notifier.current)] else []
    ensures t.widget.dataChanged == w.dataChanged
  {
    var w1 :=
      if adapter.Some? then
        w.(adapter := adapter, window := w.window.(pool := InitializeRemovedViewCache(adapter.value.viewTypeCount)))
      else w;
    Reset(w1)
  }

  /**
    The data-changed branch of `onLayout`: the window is reset as by
    `initView`, every child is detached, and the position drawn last becomes
    the one to draw next.
  */
  function ResetForDataChange(w: Widget): (t: Transition)
    ensures t.widget.window.children == [] && Contiguous(t.widget.window)
    ensures t.widget.window.leftIndex == -1 && t.widget.window.rightIndex == -1
    ensures t.widget.window.displayOffset == 0
    ensures t.widget.window.nextX == w.window.currentX && t.widget.window.currentX == 0
    ensures t.widget.window.maxX == IntMax && t.widget.window.pool == w.window.pool
    ensures !t.widget.dataChanged && t.widget.adapter == w.adapter
    ensures t.widget.notifier == Notifier(Idle, w.notifier.hasListener)
    ensures t.notified == if w.notifier.current != Idle && w.notifier.hasListener then [Notification(Idle, w.notifier.current)] else []
  {
    var oldCurrentX := w.window.currentX;
    var st := SetCurrentScrollState(w.notifier, Idle);
    var window := InitView(w.window).(children := [], nextX := oldCurrentX);
    Transition(w.(window := window, notifier := st.notifier, dataChanged := false), st.notified)
  }

  /** A clamped scroll position and which of the two bounds it hit. */
  datatype Clamped = Clamped(nextX: int, hitLeft: bool, hitRight: bool)

  /**
    The two clamps of `onLayout`: below 0 goes to 0, then above `maxX` goes
    to `maxX`.
  */
  function ClampNextX(nextX: int, maxX: int): (c: Clamped)
    ensures c.hitLeft <==> nextX < 0
    ensures c.nextX <= maxX
    ensures 0 <= maxX ==> 0 <= c.nextX
    ensures c.hitRight ==> c.nextX == maxX
    ensures c.hitRight <==> (if nextX < 0 then 0 else nextX) > maxX
    ensures c.hitLeft && 0 <= maxX ==> c.nextX == 0
    ensures c.hitLeft && !c.hitRight ==> c.nextX == 0
    ensures !c.hitLeft && !c.hitRight <==> 0 <= nextX <= maxX
    ensures !c.hitLeft && !c.hitRight ==> c.nextX == nextX
  {
    var x := if nextX < 0 then 0 else nextX;
    Clamped(if x > maxX then maxX else x, nextX < 0, x > maxX)
  }

  /** Once clamped into a non-negative range, a position stays put under a second clamp. */
  lemma ClampIsIdempotent(nextX: int, maxX: int)
    requires 0 <= maxX
    ensures ClampNextX(ClampNextX(nextX, maxX).nextX, maxX) == Clamped(ClampNextX(nextX, maxX).nextX, false, false)
  {
  }

  /** The position a pass aims for before clamping: the fling's offset if one is running, else `nextX` after any data-changed reset. */
  function RequestedX(w: Widget, fling: FlingInput): int
  {
    if fling.offset.Some? then fling.offset.value
    else if w.dataChanged then w.window.currentX
    else w.window.nextX
  }

  /** The widget with its next position clamped, the listener calls so far, and whether a clamp stopped the fling. */
  datatype Prepared = Prepared(widget: Widget, notified: seq<Notification>, forced: bool)

  /** The part of `onLayout` before the window passes: the data-changed reset, the fling sample and the two clamps. */
  function Prepare(w: Widget, fling: FlingInput): (p: Prepared)
    ensures p.forced <==> RequestedX(w, fling) < 0 || RequestedX(w, fling) > (if w.dataChanged then IntMax else w.window.maxX)
  {
    var t := if w.dataChanged then ResetForDataChange(w) else Transition(w, []);
    var w1 := t.widget;
    var requested := if fling.offset.Some? then fling.offset.value else w1.window.nextX;
    var c := ClampNextX(requested, w1.window.maxX);
    var left := if c.hitLeft then SetCurrentScrollState(w1.notifier, Idle) else Step(w1.notifier, []);
    var right := if c.hitRight then SetCurrentScrollState(left.notifier, Idle) else Step(left.notifier, []);
    Prepared(w1.(window := w1.window.(nextX := c.nextX), notifier := right.notifier),
             t.notified + left.notified + right.notified,
             c.hitLeft || c.hitRight)
  }

  /**
    The window passes of `onLayout` as written, for the shift `dx` that
    `onLayout` computes as `Dx`: evict, fill, position, and commit
    `currentX = nextX`.
  */
  function LayoutWindow(s: LayoutState, a: Adapter, vp: Viewport, dx: int): (r: Result<LayoutState>)
    ensures |s.children| == 0 ==> r == Crash(NullLeftmostChild)
    ensures r.Crash? <==> RemoveNonVisibleChildren(s, a, dx, vp.width).Crash?
    ensures r.Ok? ==> r.value.currentX == s.nextX && r.value.nextX == s.nextX && r.value.maxX == s.maxX
    ensures r.Ok? ==> |r.value.children| > 0
  {
    Commit(RemoveNonVisibleChildren(s, a, dx, vp.width), a, vp, dx)
  }

  /**
    The rest of a window pass after eviction: a crash passes through;
    otherwise fill, position and commit `currentX = nextX`.
  */
  function Commit(e: Result<LayoutState>, a: Adapter, vp: Viewport, dx: int): (r: Result<LayoutState>)
    ensures r.Crash? <==> e.Crash?
    ensures r.Crash? ==> r == e
    ensures r.Ok? ==> && r.value.currentX == e.value.nextX && r.value.nextX == e.value.nextX
                      && r.value.maxX == e.value.maxX && |r.value.children| >= |e.value.children|
  {
    match e
    case Crash(f) => Crash(f)
    case Ok(l) => Ok(FillAndPosition(l, a, vp, dx).(currentX := l.nextX))
  }

  /** The fill and position passes as written, after eviction. */
  function FillAndPosition(e: LayoutState, a: Adapter, vp: Viewport, dx: int): (p: LayoutState)
    ensures |p.children| >= |e.children|
    ensures KeepsScroll(e, p)
  {
    PositionChildren(FillList(e, a, vp.width, dx), vp, dx)
  }

  /**
    The window passes with the three corrections: eviction stops on an empty
    list, the right fill seeds `leftIndex`, and positioning adds `dx` first.
    The window's indices stay in step with its children.
  */
  function LayoutWindowFixed(s: LayoutState, a: Adapter, vp: Viewport, dx: int): (r: LayoutState)
    ensures r.currentX == s.nextX && r.nextX == s.nextX && r.maxX == s.maxX
    ensures Contiguous(s) ==> Contiguous(r)
  {
    FillAndPositionFixed(RemoveNonVisibleChildrenGuarded(s, a, dx, vp.width), a, vp, dx)
  }

  /**
    The fill and position passes with the corrections, after eviction, and
    the commit `currentX = nextX`.
  */
  function FillAndPositionFixed(e: LayoutState, a: Adapter, vp: Viewport, dx: int): (r: LayoutState)
    ensures r.currentX == e.nextX && r.nextX == e.nextX && r.maxX == e.maxX
    ensures SameViews(FillListSeeded(e, a, vp.width, dx).children, r.children)
    ensures FlushFrom(r.children, r.displayOffset + vp.paddingLeft, vp.paddingTop)
    ensures r.displayOffset == FillListSeeded(e, a, vp.width, dx).displayOffset + dx
    ensures r.leftIndex == FillListSeeded(e, a, vp.width, dx).leftIndex
    ensures r.rightIndex == FillListSeeded(e, a, vp.width, dx).rightIndex
    ensures r.pool == FillListSeeded(e, a, vp.width, dx).pool
  {
    CommitKeepsPlacement(FillListSeeded(e, a, vp.width, dx), vp, dx, e.nextX);
    PositionChildrenFixed(FillListSeeded(e, a, vp.width, dx), vp, dx).(currentX := e.nextX)
  }

  /** Committing `currentX` after the corrected positioning leaves the placement alone. */
  lemma CommitKeepsPlacement(f: LayoutState, vp: Viewport, dx: int, x: int)
    ensures SameViews(f.children, PositionChildrenFixed(f, vp, dx).(currentX := x).children)
    ensures FlushFrom(PositionChildrenFixed(f, vp, dx).(currentX := x).children,
                      PositionChildrenFixed(f, vp, dx).(currentX := x).displayOffset + vp.paddingLeft, vp.paddingTop)
  {
  }

  /**
    The last step of a pass as written: the filled children keep their views
    and widths and are laid out flush from the offset before `dx` is added;
    the offset then moves by `dx` and the indices and pool are the fill's.
  */
  lemma LayoutWindowPlaces(s: LayoutState, a: Adapter, vp: Viewport, dx: int)
    ensures RemoveNonVisibleChildren(s, a, dx, vp.width).Ok? ==>
              && LayoutWindow(s, a, vp, dx).Ok?
              && SameViews(FillList(RemoveNonVisibleChildren(s, a, dx, vp.width).value, a, vp.width, dx).children,
                           LayoutWindow(s, a, vp, dx).value.children)
              && FlushFrom(LayoutWindow(s, a, vp, dx).value.children,
                           LayoutWindow(s, a, vp, dx).value.displayOffset - dx + vp.paddingLeft, vp.paddingTop)
              && LayoutWindow(s, a, vp, dx).value.displayOffset
                 == FillList(RemoveNonVisibleChildren(s, a, dx, vp.width).value, a, vp.width, dx).displayOffset + dx
              && LayoutWindow(s, a, vp, dx).value.leftIndex
                 == FillList(RemoveNonVisibleChildren(s, a, dx, vp.width).value, a, vp.width, dx).leftIndex
              && LayoutWindow(s, a, vp, dx).value.rightIndex
                 == FillList(RemoveNonVisibleChildren(s, a, dx, vp.width).value, a, vp.width, dx).rightIndex
              && LayoutWindow(s, a, vp, dx).value.pool
                 == FillList(RemoveNonVisibleChildren(s, a, dx, vp.width).value, a, vp.width, dx).pool
  {
  }

  /**
    A completed pass as written evicts exactly the children off screen,
    fills both sides with views `getView` built for their items, and lays
    the result out as `LayoutWindowPlaces` states.
  */
  lemma LayoutWindowPasses(s: LayoutState, a: Adapter, vp: Viewport, dx: int)
    ensures RemoveNonVisibleChildren(s, a, dx, vp.width).Ok? ==>
              && Trimmed(s, RemoveNonVisibleChildren(s, a, dx, vp.width).value, dx, vp.width)
              && Filled(RemoveNonVisibleChildren(s, a, dx, vp.width).value,
                        FillList(RemoveNonVisibleChildren(s, a, dx, vp.width).value, a, vp.width, dx), a)
              && LayoutWindow(s, a, vp, dx).Ok?
              && SameViews(FillList(RemoveNonVisibleChildren(s, a, dx, vp.width).value, a, vp.width, dx).children,
                           LayoutWindow(s, a, vp, dx).value.children)
              && FlushFrom(LayoutWindow(s, a, vp, dx).value.children,
                           LayoutWindow(s, a, vp, dx).value.displayOffset - dx + vp.paddingLeft, vp.paddingTop)
  {
    RemoveNonVisibleChildrenTrims(s, a, dx, vp.width);
    if RemoveNonVisibleChildren(s, a, dx, vp.width).Ok? {
      FillListFills(RemoveNonVisibleChildren(s, a, dx, vp.width).value, a, vp.width, dx);
    }
    LayoutWindowPlaces(s, a, vp, dx);
  }

  /**
    The last step of the corrected pass: the filled children keep their
    views and widths and are laid out flush from the new offset plus the
    padding; the indices and pool are the fill's.
  */
  lemma LayoutWindowFixedPlaces(s: LayoutState, a: Adapter, vp: Viewport, dx: int)
    ensures SameViews(FillListSeeded(RemoveNonVisibleChildrenGuarded(s, a, dx, vp.width), a, vp.width, dx).children,
                      LayoutWindowFixed(s, a, vp, dx).children)
    ensures FlushFrom(LayoutWindowFixed(s, a, vp, dx).children,
                      LayoutWindowFixed(s, a, vp, dx).displayOffset + vp.paddingLeft, vp.paddingTop)
    ensures LayoutWindowFixed(s, a, vp, dx).displayOffset
            == FillListSeeded(RemoveNonVisibleChildrenGuarded(s, a, dx, vp.width), a, vp.width, dx).displayOffset + dx
    ensures LayoutWindowFixed(s, a, vp, dx).leftIndex
            == FillListSeeded(RemoveNonVisibleChildrenGuarded(s, a, dx, vp.width), a, vp.width, dx).leftIndex
    ensures LayoutWindowFixed(s, a, vp, dx).rightIndex
            == FillListSeeded(RemoveNonVisibleChildrenGuarded(s, a, dx, vp.width), a, vp.width, dx).rightIndex
    ensures LayoutWindowFixed(s, a, vp, dx).pool
            == FillListSeeded(RemoveNonVisibleChildrenGuarded(s, a, dx, vp.width), a, vp.width, dx).pool
  {
    PlacedAfterFill(RemoveNonVisibleChildrenGuarded(s, a, dx, vp.width), LayoutWindowFixed(s, a, vp, dx), a, vp, dx);
  }

  /** The placement `FillAndPositionFixed` states, for any window known to be its result. */
  lemma PlacedAfterFill(e: LayoutState, r: LayoutState, a: Adapter, vp: Viewport, dx: int)
    requires r == FillAndPositionFixed(e, a, vp, dx)
    ensures SameViews(FillListSeeded(e, a, vp.width, dx).children, r.children)
    ensures FlushFrom(r.children, r.displayOffset + vp.paddingLeft, vp.paddingTop)
    ensures r.displayOffset == FillListSeeded(e, a, vp.width, dx).displayOffset + dx
    ensures r.leftIndex == FillListSeeded(e, a, vp.width, dx).leftIndex
    ensures r.rightIndex == FillListSeeded(e, a, vp.width, dx).rightIndex
    ensures r.pool == FillListSeeded(e, a, vp.width, dx).pool
  {
  }

  /**
    The corrected pass evicts exactly the children off screen, fills both
    sides with views `getView` built for their items, and lays the result
    out as `LayoutWindowFixedPlaces` states.
  */
  lemma LayoutWindowFixedPasses(s: LayoutState, a: Adapter, vp: Viewport, dx: int)
    ensures Trimmed(s, RemoveNonVisibleChildrenGuarded(s, a, dx, vp.width), dx, vp.width)
    ensures Filled(RemoveNonVisibleChildrenGuarded(s, a, dx, vp.width),
                   FillListSeeded(RemoveNonVisibleChildrenGuarded(s, a, dx, vp.width), a, vp.width, dx), a)
    ensures SameViews(FillListSeeded(RemoveNonVisibleChildrenGuarded(s, a, dx, vp.width), a, vp.width, dx).children,
                      LayoutWindowFixed(s, a, vp, dx).children)
    ensures FlushFrom(LayoutWindowFixed(s, a, vp, dx).children,
                      LayoutWindowFixed(s, a, vp, dx).displayOffset + vp.paddingLeft, vp.paddingTop)
  {
    RemoveNonVisibleChildrenGuardedTrims(s, a, dx, vp.width);
    FillListSeededFills(RemoveNonVisibleChildrenGuarded(s, a, dx, vp.width), a, vp.width, dx);
    LayoutWindowFixedPlaces(s, a, vp, dx);
  }

  /**
    The end of `onLayout`: a finished fling (stopped by a clamp or run out)
    turns a flinging state idle; an unfinished one posts another pass.
  */
  function Conclude(p: Prepared, window: LayoutState, fling: FlingInput): (r: Pass)
    ensures r.widget.window == window && r.widget.adapter == p.widget.adapter
    ensures r.reschedule <==> !p.forced && !fling.finished
    ensures (p.forced || fling.finished) && p.widget.notifier.current == Fling ==> r.widget.notifier.current == Idle
  {
    var w := p.widget.(window := window);
    if p.forced || fling.finished then
      var st := if w.notifier.current == Fling then SetCurrentScrollState(w.notifier, Idle) else Step(w.notifier, []);
      Pass(w.(notifier := st.notifier), p.notified + st.notified, false)
    else
      Pass(w, p.notified, true)
  }

  /**
    The end of a pass calls the listener at most once more, only to report
    that a fling stopped, and otherwise leaves the scroll state alone.
  */
  lemma ConcludeNotifies(p: Prepared, window: LayoutState, fling: FlingInput)
    ensures var r := Conclude(p, window, fling);
            && r.widget.dataChanged == p.widget.dataChanged
            && r.widget.notifier.hasListener == p.widget.notifier.hasListener
            && (!((p.forced || fling.finished) && p.widget.notifier.current == Fling) ==> r.widget.notifier == p.widget.notifier)
            && |p.notified| <= |r.notified| <= |p.notified| + 1 && r.notified[..|p.notified|] == p.notified
            && (|r.notified| > |p.notified| <==>
                  (p.forced || fling.finished) && p.widget.notifier.current == Fling && p.widget.notifier.hasListener)
            && (forall k :: |p.notified| <= k < |r.notified| ==> r.notified[k] == Notification(Idle, Fling))
  {
  }

  /**
    How one pass ends for the scroll state and the listener: the position
    is committed inside `[0, maxX]` (when `maxX >= 0`), at 0 after the left
    clamp and at `maxX` after the right one, `maxX` is never
    tightened, a clamp or a finished fling leaves no fling state behind,
    every listener call announces IDLE and there is at most one, it sees
    the state from before the pass, and another pass is posted exactly when
    the fling runs on unclamped.
  */
  ghost predicate PassEnded(w: Widget, fling: FlingInput, r: Pass)
  {
    var maxX := if w.dataChanged then IntMax else w.window.maxX;
    var x := RequestedX(w, fling);
    var forced := x < 0 || x > maxX;
    && r.widget.adapter == w.adapter
    && !r.widget.dataChanged
    && r.widget.window.currentX == r.widget.window.nextX
    && r.widget.window.maxX == maxX
    && r.widget.window.nextX <= maxX
    && (0 <= maxX ==> 0 <= r.widget.window.nextX)
    && (!forced ==> r.widget.window.nextX == x)
    && (x < 0 && 0 <= maxX ==> r.widget.window.nextX == 0)
    && (0 <= x && x > maxX ==> r.widget.window.nextX == maxX)
    && (forced ==> r.widget.notifier.current == Idle)
    && (fling.finished && w.notifier.current == Fling ==> r.widget.notifier.current == Idle)
    && r.widget.notifier.hasListener == w.notifier.hasListener
    && r.widget.notifier.current ==
         (if w.dataChanged || forced || (fling.finished && w.notifier.current == Fling) then Idle else w.notifier.current)
    && (r.notified != [] <==> w.notifier.hasListener && r.widget.notifier.current != w.notifier.current)
    && |r.notified| <= 1
    && (forall e :: e in r.notified ==> e.state == Idle && e.observed == w.notifier.current)
    && (r.reschedule <==> !forced && !fling.finished)
  }

  lemma PrepareThenConclude(w: Widget, fling: FlingInput, window: LayoutState)
    requires window.currentX == window.nextX == Prepare(w, fling).widget.window.nextX
    requires window.maxX == Prepare(w, fling).widget.window.maxX
    ensures PassEnded(w, fling, Conclude(Prepare(w, fling), window, fling))
  {
  }

  /**
    `onLayout` as written: nothing happens without an adapter; otherwise it
    crashes exactly when its window pass does, which `LayoutWindow` ties to
    eviction. That includes every pass that starts with no child attached,
    and so every pass that follows a data change. A pass that completes
    leaves the window `LayoutWindow` computes, which `LayoutWindowPasses`
    describes.
  */
  function OnLayout(w: Widget, vp: Viewport, fling: FlingInput): (r: Result<Pass>)
    ensures w.adapter.None? ==> r == Ok(Pass(w, [], false))
    ensures w.adapter.Some? && (|w.window.children| == 0 || w.dataChanged) ==> r == Crash(NullLeftmostChild)
    ensures w.adapter.Some? && r.Ok? ==> PassEnded(w, fling, r.value)
    ensures w.adapter.Some? ==>
              (r.Crash? <==> LayoutWindow(Prepare(w, fling).widget.window, w.adapter.value, vp, Dx(Prepare(w, fling).widget.window)).Crash?)
    ensures w.adapter.Some? && r.Ok? ==>
              r.value.widget.window == LayoutWindow(Prepare(w, fling).widget.window, w.adapter.value, vp, Dx(Prepare(w, fling).widget.window)).value
    ensures r.Ok? ==> |r.value.widget.window.children| > 0 || w.adapter.None?
  {
    match w.adapter
    case None => Ok(Pass(w, [], false))
    case Some(a) =>
      var p := Prepare(w, fling);
      match LayoutWindow(p.widget.window, a, vp, Dx(p.widget.window))
      case Crash(f) => Crash(f)
      case Ok(window) =>
        PrepareThenConclude(w, fling, window);
        Ok(Conclude(p, window, fling))
  }

  /**
    `onLayout` with the corrected window passes: it never crashes, keeps the
    window's indices in step with its children, and leaves the window
    `LayoutWindowFixed` computes, which `LayoutWindowFixedPasses` describes.
  */
  function OnLayoutFixed(w: Widget, vp: Viewport, fling: FlingInput): (r: Pass)
    ensures w.adapter.None? ==> r == Pass(w, [], false)
    ensures w.adapter.Some? ==> PassEnded(w, fling, r)
    ensures w.adapter.Some? ==>
              r.widget.window == LayoutWindowFixed(Prepare(w, fling).widget.window, w.adapter.value, vp, Dx(Prepare(w, fling).widget.window))
    ensures Contiguous(w.window) ==> Contiguous(r.widget.window)
  {
    match w.adapter
    case None => Pass(w, [], false)
    case Some(a) =>
      var p := Prepare(w, fling);
      var window := LayoutWindowFixed(p.widget.window, a, vp, Dx(p.widget.window));
      PrepareKeepsContiguous(w, fling);
      PrepareThenConclude(w, fling, window);
      Conclude(p, window, fling)
  }

  /** The data-changed reset and the clamps keep the window's indices in step with its children. */
  lemma PrepareKeepsContiguous(w: Widget, fling: FlingInput)
    ensures Contiguous(w.window) ==> Contiguous(Prepare(w, fling).widget.window)
  {
  }

  /** A call a client can make on the widget. */
  datatype Call =
    | CallSetAdapter(adapter: Option<Adapter>)
    | CallSetListener(present: bool)
    | CallLayout(vp: Viewport, fling: FlingInput)

  /** One call as written; a crashing layout pass ends the run. */
  function Apply(w: Widget, c: Call): Result<Widget>
  {
    match c
    case CallSetAdapter(adapter) => Ok(SetAdapter(w, adapter).widget)
    case CallSetListener(present) => Ok(SetScrollListener(w, present))
    case CallLayout(vp, fling) =>
      match OnLayout(w, vp, fling)
      case Ok(pass) => Ok(pass.widget)
      case Crash(f) => Crash(f)
  }

  /** Calls made in order, stopping at the first crash. */
  function Run(w: Widget, calls: seq<Call>): Result<Widget>
    decreases |calls|
  {
    if |calls| == 0 then Ok(w)
    else
      match Apply(w, calls[0])
      case Crash(f) => Crash(f)
      case Ok(w1) => Run(w1, calls[1..])
  }

  /**
    As written, no sequence of calls ever attaches a child: only a layout
    pass attaches children, and a pass that starts with none crashes.
  */
  lemma {:induction false} ChildrenNeverAttached(w: Widget, calls: seq<Call>)
    requires w.window.children == []
    ensures Run(w, calls).Ok? ==> Run(w, calls).value.window.children == []
    decreases |calls|
  {
    if |calls| > 0 {
      match Apply(w, calls[0])
      case Crash(_) =>
      case Ok(w1) => ChildrenNeverAttached(w1, calls[1..]);
    }
  }

  /** As written, whatever calls come first, a layout pass with an adapter set crashes on the missing leftmost child. */
  lemma LayoutWithAdapterAlwaysCrashes(calls: seq<Call>, vp: Viewport, fling: FlingInput)
    requires Run(NewWidget(), calls).Ok?
    requires Run(NewWidget(), calls).value.adapter.Some?
    ensures OnLayout(Run(NewWidget(), calls).value, vp, fling) == Crash(NullLeftmostChild)
  {
    ChildrenNeverAttached(NewWidget(), calls);
  }

  /**
    With the corrections, a pass over the empty window that `initView`
    leaves attaches the items from 0 that fit.
  */
  lemma FixedWindowFromEmpty(s: LayoutState, a: Adapter, vp: Viewport)
    requires s.children == [] && s.leftIndex == -1 && s.rightIndex == -1
    requires s.currentX == s.nextX
    requires 0 < a.count && 0 < vp.width
    ensures var r := LayoutWindowFixed(s, a, vp, Dx(s));
            |r.children| > 0 && r.leftIndex == 0 && r.rightIndex == |r.children| - 1
  {
    assert Dx(s) == 0;
    GuardedEvictionOfEmpty(s, a, 0, vp.width);
    SeededFillStartsAtZero(s, a, vp.width, 0);
  }

  /** With the corrections, a pass over the empty window starting at offset 0 puts its first child at the left padding. */
  lemma FixedWindowFromEmptyAtPadding(s: LayoutState, a: Adapter, vp: Viewport)
    requires s.children == [] && s.leftIndex == -1 && s.rightIndex == -1
    requires s.currentX == s.nextX && s.displayOffset == 0
    requires 0 < a.count && 0 < vp.width
    ensures var r := LayoutWindowFixed(s, a, vp, Dx(s));
            |r.children| > 0 && r.children[0].left == vp.paddingLeft
  {
    assert Dx(s) == 0;
    GuardedEvictionOfEmpty(s, a, 0, vp.width);
    SeededFillStartsAtZero(s, a, vp.width, 0);
    assert LayoutWindowFixed(s, a, vp, 0) == FillAndPositionFixed(s, a, vp, 0);
    FirstChildAfterFill(s, a, vp, 0);
  }

  /** After the corrected fill and positioning, the first child starts at the fill's offset plus `dx` plus the padding. */
  lemma FirstChildAfterFill(e: LayoutState, a: Adapter, vp: Viewport, dx: int)
    requires |FillListSeeded(e, a, vp.width, dx).children| > 0
    ensures |FillAndPositionFixed(e, a, vp, dx).children| > 0
    ensures FillAndPositionFixed(e, a, vp, dx).children[0].left
            == FillListSeeded(e, a, vp.width, dx).displayOffset + dx + vp.paddingLeft
  {
    FixedFirstChildAtOffset(FillListSeeded(e, a, vp.width, dx), vp, dx);
    assert FillAndPositionFixed(e, a, vp, dx).children
        == PositionChildrenFixed(FillListSeeded(e, a, vp.width, dx), vp, dx).children;
  }

  /** With the corrections, the first pass after `setAdapter` attaches the items from 0 that fit. */
  lemma FixedFirstLayoutAttaches(a: Adapter, vp: Viewport)
    requires 0 < a.count && 0 < vp.width
    ensures var w := SetAdapter(NewWidget(), Some(a)).widget;
            var r := OnLayoutFixed(w, vp, FlingInput(None, true)).widget.window;
            && |r.children| > 0 && r.leftIndex == 0 && r.rightIndex == |r.children| - 1
            && r.children[0].left == vp.paddingLeft
  {
    var w := SetAdapter(NewWidget(), Some(a)).widget;
    var s := Prepare(w, FlingInput(None, true)).widget.window;
    assert OnLayoutFixed(w, vp, FlingInput(None, true)).widget.window == LayoutWindowFixed(s, a, vp, Dx(s));
    FixedWindowFromEmpty(s, a, vp);
    FixedWindowFromEmptyAtPadding(s, a, vp);
  }
}

=== FILE: outcomes.dfy ===
/** Absent values and crashing steps, shared by the whole widget model. */
module Outcomes {

  /** A value that may be absent; `None` plays the part of Java's `null`. */
  datatype Option<+T> = None | Some(value: T)

  /** The faults the layout engine can raise. */
  datatype Fault =
    | NullLeftmostChild    // `getLeftmostChild()` returned null and was dereferenced
    | NullRightmostChild   // `getRightmostChild()` returned null and was dereferenced

  /** The outcome of a step that can crash with a `NullPointerException`. */
  datatype Result<+T> = Ok(value: T) | Crash(fault: Fault)
}

=== FILE: position.dfy ===
/**
  `positionChildren`: the attached children are laid out left to right,
  flush against each other and top-aligned under the padding.
*/
module Position {
  import opened Views
  import opened Window

  /**
    `r` is `cs` laid out from `left`: every view and width kept, child `i`
    starting where the widths of the children before it end and ending one
    width later, all at height `top`.
  */
  ghost predicate LaidOutFrom(cs: seq<Child>, r: seq<Child>, left: int, top: int)
  {
    && |r| == |cs|
    && forall i :: 0 <= i < |cs| ==>
         r[i] == Child(cs[i].id, cs[i].width, left + SumWidths(cs[..i]), top, left + SumWidths(cs[..i]) + cs[i].width)
  }

  /** Children placed flush from `left`: each starts where the widths before it end, at height `top`. */
  ghost predicate FlushFrom(cs: seq<Child>, left: int, top: int)
  {
    forall i :: 0 <= i < |cs| ==>
      cs[i].left == left + SumWidths(cs[..i]) && cs[i].top == top && cs[i].right == cs[i].left + cs[i].width
  }

  /** Runs with the same widths have the same prefix sums. */
  lemma {:induction false} SameWidthsSameSums(cs: seq<Child>, ds: seq<Child>)
    requires |cs| == |ds|
    requires forall i :: 0 <= i < |cs| ==> cs[i].width == ds[i].width
    ensures SumWidths(cs) == SumWidths(ds)
    decreases |cs|
  {
    if |cs| > 0 {
      SameWidthsSameSums(cs[1..], ds[1..]);
    }
  }

  /** `r` holds the views of `cs`, in order and with their widths, wherever they are placed. */
  ghost predicate SameViews(cs: seq<Child>, r: seq<Child>)
  {
    && |r| == |cs|
    && forall i :: 0 <= i < |cs| ==> r[i].id == cs[i].id && r[i].width == cs[i].width
  }

  /** A run laid out from `left` keeps its views and is flush from `left`. */
  lemma LaidOutIsFlushFrom(cs: seq<Child>, r: seq<Child>, left: int, top: int)
    requires LaidOutFrom(cs, r, left, top)
    ensures SameViews(cs, r) && FlushFrom(r, left, top)
  {
    forall i | 0 <= i < |r|
      ensures SumWidths(r[..i]) == SumWidths(cs[..i])
    {
      SameWidthsSameSums(r[..i], cs[..i]);
    }
  }

  /** The loop of `positionChildren`: each child is placed at the running offset, which then moves past it. */
  function LayOut(cs: seq<Child>, left: int, top: int): (r: seq<Child>)
    ensures LaidOutFrom(cs, r, left, top)
    decreases |cs|
  {
    if |cs| == 0 then []
    else
      var rest := LayOut(cs[1..], left + cs[0].width, top);
      assert forall i :: 1 <= i < |cs| ==> SumWidths(cs[..i]) == cs[0].width + SumWidths(cs[1..][..i - 1]) by {
        forall i | 1 <= i < |cs| ensures SumWidths(cs[..i]) == cs[0].width + SumWidths(cs[1..][..i - 1]) {
          HeadPrefix(cs, i);
        }
      }
      [Child(cs[0].id, cs[0].width, left, top, left + cs[0].width)] + rest
  }

  /** A laid-out run has no gaps and no overlaps, starts at `left` and spans the children's total width. */
  lemma LaidOutIsFlush(cs: seq<Child>, r: seq<Child>, left: int, top: int)
    requires LaidOutFrom(cs, r, left, top)
    ensures forall i :: 0 < i < |r| ==> r[i - 1].right == r[i].left
    ensures |r| > 0 ==> r[0].left == left && r[|r| - 1].right == left + SumWidths(cs)
  {
    forall i | 0 < i < |r|
      ensures r[i - 1].right == r[i].left
    {
      PrefixStep(cs, i - 1);
    }
    if |r| > 0 {
      PrefixStep(cs, |cs| - 1);
      assert cs[..|cs|] == cs;
    }
  }

  /**
    `positionChildren(dx)` as written: the children are laid out from the
    offset captured before `dx` is added to `displayOffset`.
  */
  function PositionChildren(s: LayoutState, vp: Viewport, dx: int): (r: LayoutState)
    ensures SameViews(s.children, r.children)
    ensures FlushFrom(r.children, r.displayOffset - dx + vp.paddingLeft, vp.paddingTop)
    ensures r.displayOffset == s.displayOffset + dx
    ensures r.leftIndex == s.leftIndex && r.rightIndex == s.rightIndex && r.pool == s.pool
    ensures KeepsScroll(s, r)
  {
    var leftOffset := s.displayOffset;
    var children := LayOut(s.children, leftOffset + vp.paddingLeft, vp.paddingTop);
    LaidOutIsFlushFrom(s.children, children, leftOffset + vp.paddingLeft, vp.paddingTop);
    s.(displayOffset := s.displayOffset + dx, children := children)
  }

  /** As written, a non-zero `dx` leaves the first child `dx` away from where `displayOffset` says it starts. */
  lemma PositionLagsByDx(s: LayoutState, vp: Viewport, dx: int)
    requires |s.children| > 0
    ensures PositionChildren(s, vp, dx).children[0].left == PositionChildren(s, vp, dx).displayOffset - dx + vp.paddingLeft
    ensures dx != 0 ==> PositionChildren(s, vp, dx).children[0].left != PositionChildren(s, vp, dx).displayOffset + vp.paddingLeft
  {
    assert s.children[..0] == [];
  }

  /** `positionChildren(dx)` with `dx` added to `displayOffset` first, so the layout is drawn at the new scroll position. */
  function PositionChildrenFixed(s: LayoutState, vp: Viewport, dx: int): (r: LayoutState)
    ensures SameViews(s.children, r.children)
    ensures FlushFrom(r.children, r.displayOffset + vp.paddingLeft, vp.paddingTop)
    ensures r.displayOffset == s.displayOffset + dx
    ensures r.leftIndex == s.leftIndex && r.rightIndex == s.rightIndex && r.pool == s.pool
    ensures KeepsScroll(s, r)
  {
    var displayOffset := s.displayOffset + dx;
    var children := LayOut(s.children, displayOffset + vp.paddingLeft, vp.paddingTop);
    LaidOutIsFlushFrom(s.children, children, displayOffset + vp.paddingLeft, vp.paddingTop);
    s.(displayOffset := displayOffset, children := children)
  }

  /** With the correction, the first child starts at the new `displayOffset` plus the left padding. */
  lemma FixedFirstChildAtOffset(s: LayoutState, vp: Viewport, dx: int)
    requires |s.children| > 0
    ensures PositionChildrenFixed(s, vp, dx).children[0].left == s.displayOffset + dx + vp.paddingLeft
  {
    assert PositionChildrenFixed(s, vp, dx).children[..0] == [];
  }
}

=== FILE: recycle_pool.dfy ===
/**
  The recycle pool: one FIFO queue of detached views per view type, indexed
  by the type number the adapter reports.
*/
module RecyclePool {
  import opened Outcomes
  import opened Views

  /** Queue `t` holds the detached views of view type `t`, head first. */
  type Pool = seq<seq<ViewId>>

  /** Every view held by any queue, with multiplicity. */
  function Pooled(pool: Pool): multiset<ViewId>
  {
    if |pool| == 0 then multiset{} else multiset(pool[0]) + Pooled(pool[1..])
  }

  /** The pooled views are those of the other queues plus those of queue `t`. */
  lemma {:induction false} PooledSplit(pool: Pool, t: nat, q: seq<ViewId>)
    requires t < |pool|
    ensures Pooled(pool[t := q]) == Pooled(pool[t := []]) + multiset(q)
  {
    var withQ, without := pool[t := q], pool[t := []];
    assert Pooled(withQ) == multiset(withQ[0]) + Pooled(withQ[1..]);
    assert Pooled(without) == multiset(without[0]) + Pooled(without[1..]);
    if t == 0 {
      assert withQ[1..] == without[1..];
    } else {
      assert withQ[1..] == pool[1..][t - 1 := q];
      assert without[1..] == pool[1..][t - 1 := []];
      PooledSplit(pool[1..], t - 1, q);
    }
  }

  /**
    The cache after `initializeRemovedViewCache(viewTypeCount)`: the old
    queues are cleared away and one empty queue is added per view type.
  */
  function InitializeRemovedViewCache(viewTypeCount: int): (r: Pool)
    ensures |r| == if viewTypeCount < 0 then 0 else viewTypeCount
    ensures forall t :: 0 <= t < |r| ==> r[t] == []
    ensures Pooled(r) == multiset{}
    decreases viewTypeCount
  {
    if viewTypeCount <= 0 then []
    else
      var rest := InitializeRemovedViewCache(viewTypeCount - 1);
      assert ([[]] + rest)[1..] == rest;
      [[]] + rest
  }

  /** Whether the type has a queue; only the upper bound is checked. */
  predicate IsItemViewTypeValid(pool: Pool, viewType: nat)
  {
    viewType < |pool|
  }

  /**
    `recycleView(adapterIndex, view)`: the view joins the back of the queue
    of its item's type, or is dropped when that type has no queue.
  */
  function RecycleView(pool: Pool, a: Adapter, adapterIndex: int, v: ViewId): (r: Pool)
    ensures |r| == |pool|
    ensures a.viewType(adapterIndex) < |pool| ==> r[a.viewType(adapterIndex)] == pool[a.viewType(adapterIndex)] + [v]
    ensures forall t :: 0 <= t < |pool| && t != a.viewType(adapterIndex) ==> r[t] == pool[t]
    ensures a.viewType(adapterIndex) >= |pool| ==> r == pool
    ensures Pooled(r) == Pooled(pool) + if a.viewType(adapterIndex) < |pool| then multiset{v} else multiset{}
  {
    var t := a.viewType(adapterIndex);
    if IsItemViewTypeValid(pool, t) then
      PooledSplit(pool, t, pool[t] + [v]);
      PooledSplit(pool, t, pool[t]);
      assert pool[t := pool[t]] == pool;
      assert multiset(pool[t] + [v]) == multiset(pool[t]) + multiset{v};
      pool[t := pool[t] + [v]]
    else
      pool
  }

  /** A possibly recycled view together with the pool left behind. */
  datatype Acquired = Acquired(view: Option<ViewId>, pool: Pool)

  /**
    `getRecycledView(adapterIndex)`: the head of the queue of the item's
    type, removed from it; nothing when the type has no queue or the queue
    is empty.
  */
  function GetRecycledView(pool: Pool, a: Adapter, adapterIndex: int): (r: Acquired)
    ensures |r.pool| == |pool|
    ensures a.viewType(adapterIndex) >= |pool| || pool[a.viewType(adapterIndex)] == [] ==> r == Acquired(None, pool)
    ensures a.viewType(adapterIndex) < |pool| && pool[a.viewType(adapterIndex)] != [] ==>
      && r.view == Some(pool[a.viewType(adapterIndex)][0])
      && r.pool[a.viewType(adapterIndex)] == pool[a.viewType(adapterIndex)][1..]
    ensures forall t :: 0 <= t < |pool| && t != a.viewType(adapterIndex) ==> r.pool[t] == pool[t]
    ensures Pooled(r.pool) + (if r.view.Some? then multiset{r.view.value} else multiset{}) == Pooled(pool)
  {
    var t := a.viewType(adapterIndex);
    if IsItemViewTypeValid(pool, t) && pool[t] != [] then
      PooledSplit(pool, t, pool[t][1..]);
      PooledSplit(pool, t, pool[t]);
      assert pool[t := pool[t]] == pool;
      assert pool[t] == [pool[t][0]] + pool[t][1..];
      assert multiset(pool[t]) == multiset(pool[t][1..]) + multiset{pool[t][0]};
      Acquired(Some(pool[t][0]), pool[t := pool[t][1..]])
    else
      Acquired(None, pool)
  }

  /**
    Exactly the items whose type is valid keep a recycled view, and only
    they can be handed one.
  */
  lemma ValidTypesArePooled(pool: Pool, a: Adapter, i: int, v: ViewId)
    ensures IsItemViewTypeValid(pool, a.viewType(i)) <==> Pooled(RecycleView(pool, a, i, v)) != Pooled(pool)
    ensures GetRecycledView(pool, a, i).view.Some? ==> IsItemViewTypeValid(pool, a.viewType(i))
    ensures IsItemViewTypeValid(pool, a.viewType(i)) ==>
              GetRecycledView(RecycleView(pool, a, i, v), a, i).view.Some?
  {
    if IsItemViewTypeValid(pool, a.viewType(i)) {
      assert v in Pooled(RecycleView(pool, a, i, v));
      assert Pooled(RecycleView(pool, a, i, v))[v] == Pooled(pool)[v] + 1;
    }
  }

  /** A view recycled into an empty queue is the next one handed out for any item of that type. */
  lemma RecycleThenGet(pool: Pool, a: Adapter, i: int, j: int, v: ViewId)
    requires a.viewType(i) == a.viewType(j) < |pool|
    requires pool[a.viewType(i)] == []
    ensures GetRecycledView(RecycleView(pool, a, i, v), a, j) == Acquired(Some(v), pool)
  {
    var t := a.viewType(i);
    assert RecycleView(pool, a, i, v)[t := []] == pool;
  }

  /** Recycling into a non-empty queue leaves the old head first in line. */
  lemma RecycleQueuesBehind(pool: Pool, a: Adapter, i: int, j: int, v: ViewId)
    requires a.viewType(i) == a.viewType(j) < |pool|
    requires pool[a.viewType(i)] != []
    ensures GetRecycledView(RecycleView(pool, a, i, v), a, j).view == Some(pool[a.viewType(i)][0])
  {
  }

  /** Recycles `vs` in order, each as the view of item `i`. */
  function RecycleAll(pool: Pool, a: Adapter, i: int, vs: seq<ViewId>): (r: Pool)
    ensures |r| == |pool|
    decreases |vs|
  {
    if |vs| == 0 then pool else RecycleAll(RecycleView(pool, a, i, vs[0]), a, i, vs[1..])
  }

  /** Asks the pool for `n` views for item `i`, collecting those it hands out. */
  function Drain(pool: Pool, a: Adapter, i: int, n: nat): (r: seq<ViewId>)
    ensures |r| <= n
    decreases n
  {
    if n == 0 then []
    else
      var got := GetRecycledView(pool, a, i);
      match got.view
      case None => []
      case Some(v) => [v] + Drain(got.pool, a, i, n - 1)
  }

  lemma {:induction false} RecycleAllAppends(pool: Pool, a: Adapter, i: int, vs: seq<ViewId>)
    requires a.viewType(i) < |pool|
    ensures RecycleAll(pool, a, i, vs)[a.viewType(i)] == pool[a.viewType(i)] + vs
    decreases |vs|
  {
    var t := a.viewType(i);
    if |vs| > 0 {
      var p1 := RecycleView(pool, a, i, vs[0]);
      RecycleAllAppends(p1, a, i, vs[1..]);
      assert pool[t] + [vs[0]] + vs[1..] == pool[t] + vs;
    }
  }

  lemma {:induction false} DrainTakesHeads(pool: Pool, a: Adapter, i: int, n: nat)
    requires a.viewType(i) < |pool|
    requires n <= |pool[a.viewType(i)]|
    ensures Drain(pool, a, i, n) == pool[a.viewType(i)][..n]
    decreases n
  {
    var t := a.viewType(i);
    if n > 0 {
      var got := GetRecycledView(pool, a, i);
      DrainTakesHeads(got.pool, a, i, n - 1);
      assert pool[t][..n] == [pool[t][0]] + pool[t][1..][..n - 1];
    }
  }

  /** First in, first out: views recycled into an empty queue come back in the order they went in. */
  lemma FifoOrder(pool: Pool, a: Adapter, i: int, vs: seq<ViewId>)
    requires a.viewType(i) < |pool|
    requires pool[a.viewType(i)] == []
    ensures Drain(RecycleAll(pool, a, i, vs), a, i, |vs|) == vs
  {
    var t := a.viewType(i);
    RecycleAllAppends(pool, a, i, vs);
    DrainTakesHeads(RecycleAll(pool, a, i, vs), a, i, |vs|);
    assert pool[t] + vs == vs;
  }
}

=== FILE: recycling.dfy ===
/**
  The recycling round trip between the two window passes: a child that
  eviction detaches is the view the fill hands back to the adapter's
  `getView` when it next needs an item of the same view type.
*/
module Recycling {
  import opened Outcomes
  import opened Views
  import opened RecyclePool
  import opened Window
  import opened Evict
  import opened Fill

  /**
    A child evicted through the left edge is offered to `getView` for the
    next item appended on the right when that item has the same view type
    and the type's queue was empty; the pool is then as it was.
  */
  lemma EvictedLeftReofferedRight(s: LayoutState, a: Adapter)
    requires |s.children| > 0
    requires a.viewType(s.leftIndex) == a.viewType(s.rightIndex + 1) < |s.pool|
    requires s.pool[a.viewType(s.leftIndex)] == []
    ensures var r := AppendItem(DropLeftmost(s, a), a);
            && r.children[|r.children| - 1].id == a.getView(s.rightIndex + 1, Some(s.children[0].id))
            && r.pool == s.pool
  {
    RecycleThenGet(s.pool, a, s.leftIndex, s.rightIndex + 1, s.children[0].id);
  }

  /**
    A child evicted through the right edge is offered to `getView` for the
    next item prepended on the left when that item has the same view type
    and the type's queue was empty; the pool is then as it was.
  */
  lemma EvictedRightReofferedLeft(s: LayoutState, a: Adapter)
    requires |s.children| > 0
    requires a.viewType(s.rightIndex) == a.viewType(s.leftIndex - 1) < |s.pool|
    requires s.pool[a.viewType(s.rightIndex)] == []
    ensures var r := PrependItem(DropRightmost(s, a), a);
            && r.children[0].id == a.getView(s.leftIndex - 1, Some(s.children[|s.children| - 1].id))
            && r.pool == s.pool
  {
    RecycleThenGet(s.pool, a, s.rightIndex, s.leftIndex - 1, s.children[|s.children| - 1].id);
  }

  /**
    Evicting the rightmost child and filling right again re-attaches the
    same item, built from the view just evicted, at the same place, and
    restores the window's indices and pool.
  */
  lemma EvictThenRefillRight(s: LayoutState, a: Adapter)
    requires |s.children| > 0
    requires a.viewType(s.rightIndex) < |s.pool|
    requires s.pool[a.viewType(s.rightIndex)] == []
    ensures var r := AppendItem(DropRightmost(s, a), a);
            && r.rightIndex == s.rightIndex && r.leftIndex == s.leftIndex
            && |r.children| == |s.children|
            && r.children[..|s.children| - 1] == s.children[..|s.children| - 1]
            && r.children[|r.children| - 1].id == a.getView(s.rightIndex, Some(s.children[|s.children| - 1].id))
            && r.pool == s.pool
  {
    RecycleThenGet(s.pool, a, s.rightIndex, s.rightIndex, s.children[|s.children| - 1].id);
  }
}

=== FILE: scroll_notifier.dfy ===
/**
  The scroll-state notifier: a three-valued scroll state and an optional
  listener told about every change of it.
*/
module ScrollNotifier {

  datatype ScrollState = Idle | TouchScroll | Fling

  /**
    One call of the listener: the state it is given, and the state it would
    read as current from inside the callback.
  */
  datatype Notification = Notification(state: ScrollState, observed: ScrollState)

  /** The current scroll state and whether a listener is registered. */
  datatype Notifier = Notifier(current: ScrollState, hasListener: bool)

  /** A notifier after a call, with the listener calls that call made. */
  datatype Step = Step(notifier: Notifier, notified: seq<Notification>)

  /** `setOnScrollStateChangedListener`: a listener, or null. */
  function SetListener(n: Notifier, present: bool): (r: Notifier)
    ensures r.current == n.current
  {
    n.(hasListener := present)
  }

  /**
    `setCurrentScrollState`: the listener hears of a change before it is
    committed, so it observes the old state; the new state is always
    committed.
  */
  function SetCurrentScrollState(n: Notifier, s: ScrollState): (r: Step)
    ensures r.notifier == Notifier(s, n.hasListener)
    ensures |r.notified| <= 1
    ensures r.notified != [] <==> s != n.current && n.hasListener
    ensures forall e :: e in r.notified ==> e.state == s && e.observed == n.current
  {
    var notified := if s != n.current && n.hasListener then [Notification(s, n.current)] else [];
    Step(Notifier(s, n.hasListener), notified)
  }

  /** Setting the same state twice in a row notifies at most once. */
  lemma SetTwiceNotifiesOnce(n: Notifier, s: ScrollState)
    ensures SetCurrentScrollState(SetCurrentScrollState(n, s).notifier, s).notified == []
    ensures |SetCurrentScrollState(n, s).notified + SetCurrentScrollState(SetCurrentScrollState(n, s).notifier, s).notified| <= 1
  {
  }

  /** Sets each state of `states` in turn, collecting the listener calls. */
  function SetEach(n: Notifier, states: seq<ScrollState>): (r: Step)
    ensures r.notifier.hasListener == n.hasListener
    ensures r.notifier.current == if |states| == 0 then n.current else states[|states| - 1]
    decreases |states|
  {
    if |states| == 0 then Step(n, [])
    else
      var first := SetCurrentScrollState(n, states[0]);
      var rest := SetEach(first.notifier, states[1..]);
      Step(rest.notifier, first.notified + rest.notified)
  }

  /**
    The listener calls over a run of states form a chain of real changes:
    the first starts from the state before the run, each next one starts
    where the previous one ended, and the last ends at the final state.
  */
  ghost predicate Chain(from: ScrollState, notes: seq<Notification>, to: ScrollState)
  {
    && (forall k :: 0 <= k < |notes| ==> notes[k].state != notes[k].observed)
    && (forall k :: 0 < k < |notes| ==> notes[k].observed == notes[k - 1].state)
    && (|notes| == 0 ==> from == to)
    && (|notes| > 0 ==> notes[0].observed == from && notes[|notes| - 1].state == to)
  }

  /**
    With a listener, the calls form a chain of real changes from the starting
    state to the final one; without one there are none.
  */
  lemma {:induction false} NotificationsChain(n: Notifier, states: seq<ScrollState>)
    ensures n.hasListener ==> Chain(n.current, SetEach(n, states).notified, SetEach(n, states).notifier.current)
    ensures !n.hasListener ==> SetEach(n, states).notified == []
    decreases |states|
  {
    if |states| > 0 {
      var first := SetCurrentScrollState(n, states[0]);
      NotificationsChain(first.notifier, states[1..]);
    }
  }
}

=== FILE: views.dfy ===
/**
  The things the layout engine manipulates: view identities, the adapter
  that supplies them, the viewport, and attached children with their frames.
*/
module Views {
  import opened Outcomes

  /** Identity of one view instance. */
  type ViewId = nat

  /**
    The data source, as pure functions. `getView(i, recycled)` is the view
    the adapter hands back for item `i` when offered `recycled` (or nothing)
    to reuse; `width(i)` is the width that view measures to.
  */
  datatype Adapter = Adapter(
    count: nat,
    viewTypeCount: int,
    viewType: int -> nat,
    width: int -> nat,
    getView: (int, Option<ViewId>) -> ViewId)

  /** The list's own width and its left and top padding. */
  datatype Viewport = Viewport(width: int, paddingLeft: int, paddingTop: int)

  /**
    An attached child: its view, its measured width, and the frame it was
    last laid out at (`left`, `top`, `right`).
  */
  datatype Child = Child(id: ViewId, width: nat, left: int, top: int, right: int)

  /**
    `c` is a view the adapter built for item `i`, whatever recycled view it
    was offered, measured to that item's width.
  */
  ghost predicate BuiltFor(a: Adapter, i: int, c: Child)
  {
    c.width == a.width(i) && FromGetView(a, i, c.id)
  }

  /** `id` is what `getView(i, v)` returns for some offer `v`. */
  ghost predicate FromGetView(a: Adapter, i: int, id: ViewId)
  {
    exists v: Option<ViewId> :: id == a.getView(i, v)
  }

  /** A child just added and measured, not yet laid out. */
  function Unlaid(id: ViewId, width: nat): Child
  {
    Child(id, width, 0, 0, 0)
  }

  /** Total measured width of a run of children. */
  function SumWidths(cs: seq<Child>): nat
  {
    if |cs| == 0 then 0 else cs[0].width + SumWidths(cs[1..])
  }

  lemma {:induction false} SumWidthsConcat(xs: seq<Child>, ys: seq<Child>)
    ensures SumWidths(xs + ys) == SumWidths(xs) + SumWidths(ys)
  {
    if |xs| > 0 {
      assert (xs + ys)[1..] == xs[1..] + ys;
      SumWidthsConcat(xs[1..], ys);
    } else {
      assert xs + ys == ys;
    }
  }

  /** Extending a prefix by one child adds that child's width. */
  lemma PrefixStep(cs: seq<Child>, k: nat)
    requires k < |cs|
    ensures SumWidths(cs[..k + 1]) == SumWidths(cs[..k]) + cs[k].width
  {
    assert cs[..k + 1] == cs[..k] + [cs[k]];
    SumWidthsConcat(cs[..k], [cs[k]]);
    assert [cs[k]][1..] == [];
  }

  /** A prefix of a run is its head followed by a prefix of its tail. */
  lemma HeadPrefix(cs: seq<Child>, k: nat)
    requires 0 < k <= |cs|
    ensures cs[k..] == cs[1..][k - 1..]
    ensures SumWidths(cs[..k]) == cs[0].width + SumWidths(cs[1..][..k - 1])
  {
    assert cs[..k][1..] == cs[1..][..k - 1];
  }

  /** A slice is its first child followed by the rest of the slice. */
  lemma SliceHead(cs: seq<Child>, i: nat, j: nat)
    requires i < j <= |cs|
    ensures SumWidths(cs[i..j]) == cs[i].width + SumWidths(cs[i + 1..j])
  {
    assert cs[i..j][1..] == cs[i + 1..j];
  }
}

=== FILE: window.dfy ===
/**
  The layout engine's state: scroll positions, the adapter-index window of
  attached children, the display offset, the children and the pool.
*/
module Window {
  import opened Views
  import opened RecyclePool

  /** Java's `Integer.MAX_VALUE`, the "no right bound known yet" value of `maxX`. */
  const IntMax: int := 0x7fff_ffff

  /**
    `currentX` is the scroll position last drawn, `nextX` the one to draw
    next; `displayOffset` anchors the leftmost child; `leftIndex` and
    `rightIndex` are the adapter indices the engine believes are at the two
    ends of `children`.
  */
  datatype LayoutState = LayoutState(
    currentX: int,
    nextX: int,
    displayOffset: int,
    leftIndex: int,
    rightIndex: int,
    maxX: int,
    children: seq<Child>,
    pool: Pool)

  /** `initView`: resets the six window fields; the children and the pool are left alone. */
  function InitView(s: LayoutState): (r: LayoutState)
    ensures r.currentX == 0 && r.nextX == 0 && r.displayOffset == 0
    ensures r.leftIndex == -1 && r.rightIndex == -1 && r.maxX == IntMax
    ensures r.children == s.children && r.pool == s.pool
  {
    s.(currentX := 0, nextX := 0, displayOffset := 0, leftIndex := -1, rightIndex := -1, maxX := IntMax)
  }

  /** The shift a layout pass applies, `dx = mCurrentX - mNextX`. */
  function Dx(s: LayoutState): int
  {
    s.currentX - s.nextX
  }

  /** The scroll fields that the eviction, fill and positioning steps never touch. */
  predicate KeepsScroll(s: LayoutState, r: LayoutState)
  {
    r.currentX == s.currentX && r.nextX == s.nextX && r.maxX == s.maxX
  }

  /**
    The window is the untouched initial one, or its indices span exactly
    the attached children.
  */
  predicate Contiguous(s: LayoutState)
  {
    || (s.leftIndex == -1 && s.rightIndex == -1 && |s.children| == 0)
    || (0 <= s.leftIndex && s.rightIndex - s.leftIndex + 1 == |s.children|)
  }
}
